=== FILE: README.md ===
# sc-trade-companion: kiosk listing and location extraction, in Dafny

This project models the part of sc-trade-companion that turns OCR output of a Star Citizen
trading kiosk into trading facts. It covers two things:

- **RawCommodityListing.** One kiosk row is read from a left column (commodity name, then the
  inventory level) and a right column (the quantity, then the unit price on the next line). The
  four fields are extracted independently. Each extraction runs in its own `try`, and an exception
  leaves only that field empty.
- **CommodityLocationReader.** The player's location is the text of the fragment that follows
  the "your inventories" heading. It is spell-checked against the known locations.

Modules:

- `Wrappers`: `Option` and `Result`, with `:-` propagation and `ToOption` for a `try`/`catch`.
- `Ocr`: fragments, columns and OCR results, and the column-by-column flattening.
- `Failures`: the Java exceptions involved, as one datatype, and the function types of the
  collaborators.
- `Text`: the `String` operations the extractors use.
  - lower-casing; `replace` with a one-character target;
  - `lastIndexOf`;
  - `strip`;
  - `Collectors.joining`, and splitting as its inverse.

  It also holds `indexOf`, which neither extractor calls. The model uses it to define splitting and
  decimal parsing.
- `Numbers`: `Integer.valueOf`, `Double.parseDouble` on the text group 2 can produce, and the
  modulo-1000 correction for a currency glyph read as digits.
- `RightPattern`: a matcher for `RIGHT_PATTERN`, `\D*([0-9\,]+).+\R.((\d+[\.\,])?\d+[k ]*)` with
  `CASE_INSENSITIVE`, as `Matcher.find()` runs it.
  - `IsPath` says when a set of positions is one way of matching the whole pattern.
  - `Before` is the order in which java.util.regex's backtracking tries those ways: leftmost
    start, greedy quantifiers, and CR LF before a single line break for `\R`.
  - `FindRight` is proved to return the `Before`-least way, which is the match Java reports.
- `CommodityListing`: the four extractions and the constructor.
- `LocationReader`: `extractLocation` and `read`.
- `ListingExamples`: complete rows worked through the model.

Java exceptions are `Failure` values. The constructor's `try`/`catch` blocks and `read`'s catch-all
turn them into absent `Option`s.

Code the model cannot see becomes a function parameter, constrained only by what the model needs:

- `StringUtil.spellCheck`;
- `OcrUtil.findFragmentClosestTo`;
- `LocatedFragment.equals`;
- `LocatedColumn.getText`;
- `LocationRepository.findAllLocations`;
- the `InventoryLevel` enum: a type parameter, with `values()` as a sequence and `getString` as a
  function.

The OCR engine's outcome for `read` is a `Result` argument.

Behaviours of the code a reader may not expect, all modelled as written:

- Quantity and price come from two separate matches. The quantity matches the right text with only
  its spaces removed. The price matches the lower-cased text with its spaces removed and `l` and `s`
  read as `1` and `5`. The two matches can disagree: `ListingExamples.DifferentMatches` shows a
  row with a price but no quantity.
- When the heading is the last fragment, `it.next()` at `CommodityLocationReader.java:62` throws
  `NoSuchElementException`. It is not caught there, so `extractLocation` fails with that exception
  and not with `LocationNotFoundException`. `read` turns either into an absent location.
- The quantity is parsed by `Integer.valueOf`. A digit string above 2147483647 therefore fails and
  leaves the quantity absent.
- Only a spell-check result that names an inventory level yields a level. Another string makes
  `Optional.of(null)` throw, which is modelled as `NullPointer`, and the level is absent.

## Model

| member | source | states |
|---|---|---|
| CommodityListing.ExtractCommodity | src/main/java/tools/sctrade/companion/domain/commodity/RawCommodityListing.java:71-81 | The commodity fails exactly when the left column has no fragments, with IndexOutOfBounds from `remove(size() - 1)`. A single fragment gives the empty name. Otherwise the name is the texts of all fragments but the last, joined by single spaces. |
| CommodityListing.Texts | src/main/java/tools/sctrade/companion/domain/commodity/RawCommodityListing.java:76 | Mapping each fragment to its text gives one text per fragment, in the fragments' order, each the text of its fragment. |
| CommodityListing.CommodityKeepsFragmentTexts | src/main/java/tools/sctrade/companion/domain/commodity/RawCommodityListing.java:73-76 | When no kept fragment text holds a space, splitting the commodity name at its spaces gives back exactly the texts of all fragments but the last, in order. |
| Text.SplitJoin | src/main/java/tools/sctrade/companion/domain/commodity/RawCommodityListing.java:76 | `Collectors.joining(" ")` is inverted by splitting at the separator, as long as no joined piece contains the separator. |
| Text.Join | src/main/java/tools/sctrade/companion/domain/commodity/RawCommodityListing.java:76 | `Collectors.joining` produces exactly the characters of the parts, plus the separator when there are at least two parts. |
| Text.JoinSplit | src/main/java/tools/sctrade/companion/domain/commodity/RawCommodityListing.java:76 | Splitting any string at a separator and joining the pieces again restores the string. |
| CommodityListing.InventoryCandidate | src/main/java/tools/sctrade/companion/domain/commodity/RawCommodityListing.java:88-90 | The level candidate fails exactly when the text has no space, because `substring(0, -1)` throws. Otherwise it is the stripped text before the last space, and the text after that space holds no space. |
| CommodityListing.InventoryCandidateExample | src/main/java/tools/sctrade/companion/domain/commodity/RawCommodityListing.java:88-90 | "Medium 85%" yields the candidate "Medium". |
| Text.Strip | src/main/java/tools/sctrade/companion/domain/commodity/RawCommodityListing.java:90 | `strip` returns a contiguous middle of its input with only whitespace on either side. The result neither starts nor ends with whitespace, and it is empty exactly when the input is all whitespace. |
| Text.StripIdempotent | src/main/java/tools/sctrade/companion/domain/commodity/RawCommodityListing.java:90 | Stripping a stripped string changes nothing. |
| Text.LastIndexOf | src/main/java/tools/sctrade/companion/domain/commodity/RawCommodityListing.java:90 | `lastIndexOf` is absent exactly when the character does not occur. Otherwise it is a position of that character with no later occurrence. |
| CommodityListing.LevelsByDisplay | src/main/java/tools/sctrade/companion/domain/commodity/RawCommodityListing.java:92-93 | `toMap` succeeds exactly when no two levels share a display string, and fails with IllegalState otherwise. Its keys are exactly the display strings, and each key maps to a level that displays as that key. |
| CommodityListing.ExtractInventoryLevel | src/main/java/tools/sctrade/companion/domain/commodity/RawCommodityListing.java:83-101 | The `get(-1)` and `substring(0, -1)` cases fail with IndexOutOfBounds. A level comes back only when the spell-check of the candidate picked that level's display string. When display strings are distinct and the spell-check names one of them, that level is the result. |
| Text.ToLower | src/main/java/tools/sctrade/companion/domain/commodity/RawCommodityListing.java:107 | Lower-casing keeps the length and maps each character on its own; no upper-case letter survives. |
| Text.ToLowerIdempotent | src/main/java/tools/sctrade/companion/domain/commodity/RawCommodityListing.java:119-123 | Lower-casing an already lower-cased text changes nothing. |
| CommodityListing.GroupTwoLowered | src/main/java/tools/sctrade/companion/domain/commodity/RawCommodityListing.java:119-123 | The second lower-casing changes nothing: group 2 of any match in the price text is already lower case, because the text was lower-cased before matching. |
| Text.Replace | src/main/java/tools/sctrade/companion/domain/commodity/RawCommodityListing.java:119-120 | `replace("l", "1")` and `replace("s", "5")` keep the length, turn every occurrence of the target into the replacement at the same position, and keep every other character. |
| Text.Remove | src/main/java/tools/sctrade/companion/domain/commodity/RawCommodityListing.java:105 | `replace(c, "")` leaves no `c`, and keeps exactly the other characters of its input. |
| Text.RemoveCounts | src/main/java/tools/sctrade/companion/domain/commodity/RawCommodityListing.java:108 | Removal keeps every other character exactly as often as it occurs. |
| Text.RemoveAppend | src/main/java/tools/sctrade/companion/domain/commodity/RawCommodityListing.java:105 | Removal over a concatenation is the concatenation of the removals. |
| CommodityListing.QuantityDigits | src/main/java/tools/sctrade/companion/domain/commodity/RawCommodityListing.java:107-108 | Group 1 lower-cased with its commas deleted is all digits, and it holds the digits of group 1 with their multiplicities. |
| Numbers.ParseInt | src/main/java/tools/sctrade/companion/domain/commodity/RawCommodityListing.java:110 | `Integer.valueOf` gives a 32-bit value or NumberFormat. On digit text it succeeds exactly when the text is non-empty and its value is at most 2147483647, and then the result is that value. |
| CommodityListing.ExtractQuantity | src/main/java/tools/sctrade/companion/domain/commodity/RawCommodityListing.java:103-115 | No match on the space-free text gives IllegalState. With a match, the quantity succeeds exactly when group 1 without commas is a non-empty digit string within `int` range, and then it is that number. Any quantity lies in [0, 2147483647]. |
| RightPattern.FindRight | src/main/java/tools/sctrade/companion/domain/commodity/RawCommodityListing.java:16-17 | `find()` reports a match exactly when some way of matching the pattern exists. The match reported comes before every other way in Java's backtracking order. |
| RightPattern.LongestPrice | src/main/java/tools/sctrade/companion/domain/commodity/RawCommodityListing.java:17 | Group 2 from a position, as backtracking finds it, is a price-shaped text: digits, an optional separator and more digits, then `[k ]*`. No longer price-shaped text starts there, and none exists when it reports none. |
| RightPattern.PriceAlphabet | src/main/java/tools/sctrade/companion/domain/commodity/RawCommodityListing.java:17 | Group 2 starts with a digit and holds only digits, `.`, `,`, `k`, `K` and spaces. |
| RightPattern.Group1 | src/main/java/tools/sctrade/companion/domain/commodity/RawCommodityListing.java:107 | Group 1 is a non-empty run of digits and commas. |
| RightPattern.Group2 | src/main/java/tools/sctrade/companion/domain/commodity/RawCommodityListing.java:123 | Group 2 is non-empty, starts with a digit, and holds only digits, separators and `[k ]` characters. |
| CommodityListing.PriceText | src/main/java/tools/sctrade/companion/domain/commodity/RawCommodityListing.java:119-120 | The text the price is matched against holds no space, no `l`, no `s` and no upper-case letter. |
| CommodityListing.PriceIgnoresCase | src/main/java/tools/sctrade/companion/domain/commodity/RawCommodityListing.java:119 | Two right texts that agree once lower-cased get the same price. |
| CommodityListing.PriceDigits | src/main/java/tools/sctrade/companion/domain/commodity/RawCommodityListing.java:123-125 | What reaches `parseDouble` is made only of digits and separators. |
| CommodityListing.EndsWithK | src/main/java/tools/sctrade/companion/domain/commodity/RawCommodityListing.java:123-124 | The thousands flag is set exactly when the lower-cased group 2 ends with `k`, that is, when group 2 ends with `k` or `K`. |
| CommodityListing.PriceDigitsTrailingK | src/main/java/tools/sctrade/companion/domain/commodity/RawCommodityListing.java:124-125 | A trailing `k` marks thousands and is removed before parsing. |
| Numbers.ParseDecimal | src/main/java/tools/sctrade/companion/domain/commodity/RawCommodityListing.java:127 | On digits and separators, `parseDouble` succeeds exactly when there is no comma, at most one point and at least one digit, and then the value is non-negative. Any failure is NumberFormat. |
| Numbers.ParseDecimalPoint | src/main/java/tools/sctrade/companion/domain/commodity/RawCommodityListing.java:127 | `whole.frac` parses to whole + frac / 10^len(frac). |
| Numbers.ParseDecimalDigits | src/main/java/tools/sctrade/companion/domain/commodity/RawCommodityListing.java:127 | A digit string parses to its decimal value. |
| CommodityListing.PriceWithComma | src/main/java/tools/sctrade/companion/domain/commodity/RawCommodityListing.java:125-127 | A comma in group 2 makes `parseDouble` throw NumberFormat. |
| Numbers.DropCurrencyGlyph | src/main/java/tools/sctrade/companion/domain/commodity/RawCommodityListing.java:129-135 | The corrected price is in [0, 1000). It is unchanged below 1000, and it differs from the parsed value by a non-negative multiple of 1000. |
| Numbers.DropCurrencyGlyphUnique | src/main/java/tools/sctrade/companion/domain/commodity/RawCommodityListing.java:129-135 | The correction is the only value in [0, 1000) that differs from the parsed value by a multiple of 1000. |
| CommodityListing.PriceFromGroup | src/main/java/tools/sctrade/companion/domain/commodity/RawCommodityListing.java:123-141 | Group 2 gives a price exactly when its digits parse, and NumberFormat otherwise. The unit value is at most the parsed value, differs from it by a multiple of 1000, and equals it below 1000. The price is in [0, 1000), or in [0, 1000000) with a trailing `k`. |
| CommodityListing.PriceOfDecimal | src/main/java/tools/sctrade/companion/domain/commodity/RawCommodityListing.java:127-135 | A plain decimal group is priced at its value after the modulo-1000 correction. |
| CommodityListing.PriceOfThousands | src/main/java/tools/sctrade/companion/domain/commodity/RawCommodityListing.java:124-139 | A decimal group followed by `k` is priced at 1000 times its corrected value: the modulo is applied before the scaling. |
| CommodityListing.PriceThousandsExample | src/main/java/tools/sctrade/companion/domain/commodity/RawCommodityListing.java:123-139 | Group 2 "1.5k" is priced 1500. |
| CommodityListing.PriceGlyphExample | src/main/java/tools/sctrade/companion/domain/commodity/RawCommodityListing.java:129-135 | Group 2 "1141.5", whose leading 1 is a currency glyph, is priced 141.5. |
| CommodityListing.ExtractPrice | src/main/java/tools/sctrade/companion/domain/commodity/RawCommodityListing.java:117-146 | No match on the price text gives IllegalState. With a match, the price is exactly what group 2 of that match gives. Any price lies in [0, 1000000), and any failure is IllegalState or NumberFormat. |
| CommodityListing.NewListing | src/main/java/tools/sctrade/companion/domain/commodity/RawCommodityListing.java:29-53 | Each field holds exactly its own extraction's outcome: present with the extracted value when that extraction returned, absent when it threw. A failure in one extraction therefore never touches another field. So a commodity is stored exactly when the left column has fragments, and an inventory level only if it is one of the levels. A quantity is within `int` range and a price within [0, 1000000), each only when the pattern matched its text. |
| Wrappers.Result.ToOption | src/main/java/tools/sctrade/companion/domain/commodity/RawCommodityListing.java:71-146 | Each extraction's catch-all makes its field present exactly when the extraction returned, and the field then holds the returned value. |
| CommodityListing.FieldsIndependent | src/main/java/tools/sctrade/companion/domain/commodity/RawCommodityListing.java:29-37 | Commodity and inventory level depend only on the left column; quantity and price depend only on the right column. |
| ListingExamples.RowQuantityExample | src/main/java/tools/sctrade/companion/domain/commodity/RawCommodityListing.java:103-115 | The right text "1,234 SCU" over "¤1.5k" has quantity 1234. |
| ListingExamples.RowPriceExample | src/main/java/tools/sctrade/companion/domain/commodity/RawCommodityListing.java:117-146 | The same text has price 1500. The price comes from a different match, in which "SCU" has become "5cu". |
| ListingExamples.DifferentMatches | src/main/java/tools/sctrade/companion/domain/commodity/RawCommodityListing.java:105-123 | The right text "7x" over "sl" has no quantity, because the pattern does not match it. It does have price 1, because the price text reads "sl" as "51". |
| Ocr.Flatten | src/main/java/tools/sctrade/companion/domain/commodity/CommodityLocationReader.java:51-52 | The flattened list holds exactly the fragments of the columns: a fragment is in it exactly when it is in some column. |
| Ocr.FlattenPosition | src/main/java/tools/sctrade/companion/domain/commodity/CommodityLocationReader.java:51-52 | Fragment j of column i lands after all fragments of earlier columns and after the j fragments above it. |
| Ocr.FlattenOrigin | src/main/java/tools/sctrade/companion/domain/commodity/CommodityLocationReader.java:51-52 | Every flattened fragment comes from a column, at the position `FlattenPosition` gives. |
| Ocr.FlattenAppend | src/main/java/tools/sctrade/companion/domain/commodity/CommodityLocationReader.java:51-52 | Flattening distributes over concatenation of column sequences. |
| LocationReader.AnchorIndex | src/main/java/tools/sctrade/companion/domain/commodity/CommodityLocationReader.java:56-61 | The iterator scan finds a position exactly when some fragment equals the anchor. The position found is the first such fragment. |
| LocationReader.SpellOutcome | src/main/java/tools/sctrade/companion/domain/commodity/CommodityLocationReader.java:65-74 | A spell-checked location is returned. NoCloseString becomes an absent location, and NoSuchElement becomes LocationNotFound over all fragments. Any other exception propagates. |
| LocationReader.ExtractLocation | src/main/java/tools/sctrade/companion/domain/commodity/CommodityLocationReader.java:50-79 | A closest-fragment failure propagates, and no fragment equal to the anchor gives LocationNotFound over all fragments. An anchor in last place gives NoSuchElement. Otherwise the outcome is the spell-check outcome of the fragment right after the first anchor. |
| LocationReader.Read | src/main/java/tools/sctrade/companion/domain/commodity/CommodityLocationReader.java:35-48 | Any OCR or extraction failure becomes an absent location, and a successful extraction is returned as is. A location is returned only when it is the spell-check of the fragment that follows the first anchor. |
| LocationReader.LocationAcrossColumns | src/main/java/tools/sctrade/companion/domain/commodity/CommodityLocationReader.java:51-68 | A heading that ends one column is followed by the fragment that starts the next column, so that fragment's spell-checked text is the location. |

## Left out

- Logging and `toString` (`RawCommodityListing.java:55-69`): they produce no value the rest of
  the program reads.
- The `left`/`right` fields: the model passes the two columns to `NewListing` and the extractions
  as arguments, and nothing reads the fields after construction.
- The OCR engine, the `ThreadLocal` that holds it, and its `remove()` in `finally`: `read` takes
  the OCR outcome as an argument.
- The bodies of `StringUtil.spellCheck`, `OcrUtil.findFragmentClosestTo`,
  `LocatedFragment.equals`, `LocatedColumn.getText`, `LocationRepository.findAllLocations` and the
  `InventoryLevel` enum: these are not part of this model and appear as parameters.
- `Text.ToLower`: lower-cases ASCII letters only. `toLowerCase` also maps non-ASCII capitals, and
  so does `toLowerCase(Locale.ROOT)`; the model keeps them unchanged.
- `Numbers.ParseDecimal`: defined only on digits, `.` and `,`. These are all that group 2 can
  hand to `parseDouble` once `k`s and spaces are gone. Exponents, signs, hexadecimal and
  `Infinity`/`NaN` are not modelled.
- `CommodityListing.PriceFromGroup`: prices are exact reals, not IEEE doubles, and the rounding of
  `parseDouble`, `%=` and `*=` is not modelled. Three consequences follow.
  - Rounding can move a value across a multiple of 1000, which flips the currency-glyph
    correction. `parseDouble("999.99999999999999999")` is 1000.0, which `%= 1000` turns into 0.0.
    The model prices that group just under 1000.
  - Rounding can change the integer part below 2^53. "4503599627370497.5" parses to the double
    4503599627370498, which Java prices at 498; the model prices it at 497.5.
  - For a parsed value of 1000 or more, the parse's rounding error, which scales with the whole
    value, carries into the small remainder. "1000.1" gives Java 0.10000000000002274, and the
    model 0.1.
- `CommodityListing.ExtractPrice`: a group 2 with more than 309 digits before the separator parses
  to `Infinity`, and `Infinity % 1000` is `NaN`, so Java stores a present `NaN` price. The model
  has no `NaN`: it gives that text a finite price in [0, 1000000), as its contract states.
- `CommodityListing.NewListing`: the price bound [0, 1000000) it states likewise does not hold
  for the `NaN` price above.
- `Numbers.ParseInt`: accepts ASCII digits only, where `Integer.valueOf` also accepts other Unicode
  decimal digits. Group 1 holds only `[0-9,]`, so the extractor never passes it any.
- `null` texts and `null` collaborator results, apart from the `Optional.of(null)` of a spell-check
  result that names no level.
- `LocationReader.ExtractLocation`: an exception thrown by `findAllLocations` itself, outside
  `spellCheck`, is not modelled. The location set is an argument.
- The `CompanionGui` wiring that constructs and calls these classes.

=== FILE: commodity_listing.dfy ===
/** RawCommodityListing: one kiosk row read from a pair of aligned columns. The left column holds
    the commodity name and, in its last fragment, the inventory level followed by a marker; the
    right column holds the quantity and, on the next line, the unit price. Each of the four fields
    is extracted once, on its own, and an exception in one extraction leaves that field absent. */
module CommodityListing {
  import opened Wrappers
  import opened Ocr
  import opened Failures
  import opened Text
  import opened Numbers
  import opened RightPattern

  /** The fields the constructor stores; the getters return them unchanged. `L` stands for the
      InventoryLevel enum. */
  datatype RawCommodityListing<L> = RawCommodityListing(
    commodity: Option<string>,
    inventoryLevel: Option<L>,
    quantity: Option<int>,
    price: Option<real>)

  /** The stream step that maps each fragment to its text: one text per fragment, in order. */
  function Texts(fragments: seq<Fragment>): (texts: seq<string>)
    ensures |texts| == |fragments|
    ensures forall i :: 0 <= i < |fragments| ==> texts[i] == fragments[i].text
  {
    if fragments == [] then [] else [fragments[0].text] + Texts(fragments[1..])
  }

  // ---------------------------------------------------------------- commodity

  /** extractCommodity: the texts of all fragments but the last, joined by single spaces;
      removing the last element of an empty list throws IndexOutOfBoundsException. */
  function ExtractCommodity(left: Column): (r: Result<string, Exception>)
    ensures r.Failure? <==> |left.fragments| == 0
    ensures r.Failure? ==> r.error == IndexOutOfBounds
    ensures |left.fragments| == 1 ==> r == Success("")
    ensures r.Success? ==> r.value == Join(Texts(left.fragments[..|left.fragments| - 1]), ' ')
  {
    var fragments := left.fragments;
    if |fragments| == 0 then Failure(IndexOutOfBounds)
    else Success(Join(Texts(fragments[..|fragments| - 1]), ' '))
  }

  /** The commodity name keeps every text but the last's, in order: when none of them holds a
      space, splitting the name at its spaces gives them back. */
  lemma CommodityKeepsFragmentTexts(left: Column)
    requires |left.fragments| >= 2
    requires forall i :: 0 <= i < |left.fragments| - 1 ==> ' ' !in left.fragments[i].text
    ensures ExtractCommodity(left).Success?
    ensures SplitOn(ExtractCommodity(left).value, ' ') == Texts(left.fragments[..|left.fragments| - 1])
  {
    var texts := Texts(left.fragments[..|left.fragments| - 1]);
    SplitJoin(texts, ' ');
  }

  // ---------------------------------------------------------------- inventory level

  /** The level-name candidate in the last fragment's text: everything before its last space,
      stripped. Without a space, substring(0, -1) throws. */
  function InventoryCandidate(text: string): (r: Result<string, Exception>)
    ensures r.Failure? <==> ' ' !in text
    ensures r.Failure? ==> r.error == IndexOutOfBounds
    ensures r.Success? ==> exists i :: IsLastSpace(text, i) && r.value == Strip(text[..i])
  {
    match LastIndexOf(text, ' ')
    case None => Failure(IndexOutOfBounds)
    case Some(i) =>
      assert IsLastSpace(text, i);
      Success(Strip(text[..i]))
  }

  /** Position `i` holds the last space of `text`. */
  predicate IsLastSpace(text: string, i: int) {
    0 <= i < |text| && text[i] == ' ' && ' ' !in text[i + 1..]
  }

  /** "Medium 85%" names the level "Medium". */
  lemma InventoryCandidateExample()
    ensures InventoryCandidate("Medium 85%") == Success("Medium")
  {
    var text := "Medium 85%";
    assert LastIndexOf(text, ' ') == Some(6);
    var head := text[..6];
    assert head == "Medium";
    assert StripStart(head) == 0;
    assert StripEnd(head) == 6;
    assert head[0..6] == head;
  }

  /** No two levels share a display string. */
  ghost predicate DistinctDisplays<L>(levels: seq<L>, display: L -> string) {
    forall i, j :: 0 <= i < j < |levels| ==> display(levels[i]) != display(levels[j])
  }

  /** The display strings of all levels: the spell-check vocabulary. */
  function Displays<L>(levels: seq<L>, display: L -> string): set<string> {
    set i | 0 <= i < |levels| :: display(levels[i])
  }

  /** Collectors.toMap(InventoryLevel::getString, identity) over InventoryLevel.values() in order;
      a display string seen twice makes toMap throw IllegalStateException. */
  function LevelsByDisplay<L(==)>(levels: seq<L>, display: L -> string): (r: Result<map<string, L>, Exception>)
    ensures r.Success? <==> DistinctDisplays(levels, display)
    ensures r.Failure? ==> r.error == IllegalState
    ensures r.Success? ==> r.value.Keys == Displays(levels, display)
    ensures r.Success? ==> forall k :: k in r.value ==> r.value[k] in levels && display(r.value[k]) == k
    decreases |levels|
  {
    if |levels| == 0 then Success(map[])
    else
      var init := levels[..|levels| - 1];
      var last := levels[|levels| - 1];
      assert Displays(levels, display) == Displays(init, display) + {display(last)} by {
        forall k | k in Displays(levels, display) ensures k in Displays(init, display) + {display(last)} {
          var i :| 0 <= i < |levels| && display(levels[i]) == k;
          if i < |levels| - 1 {
            assert init[i] == levels[i];
          }
        }
        forall k | k in Displays(init, display) ensures k in Displays(levels, display) {
          var i :| 0 <= i < |init| && display(init[i]) == k;
          assert levels[i] == init[i];
        }
      }
      assert DistinctDisplays(levels, display) <==>
             DistinctDisplays(init, display) && display(last) !in Displays(init, display) by {
        if DistinctDisplays(init, display) && display(last) !in Displays(init, display) {
          forall i, j | 0 <= i < j < |levels| ensures display(levels[i]) != display(levels[j]) {
            assert levels[i] == init[i];
            if j < |levels| - 1 {
              assert levels[j] == init[j];
            }
          }
        }
        if DistinctDisplays(levels, display) {
          forall i, j | 0 <= i < j < |init| ensures display(init[i]) != display(init[j]) {
            assert init[i] == levels[i] && init[j] == levels[j];
          }
          forall k | k in Displays(init, display) ensures k != display(last) {
            var i :| 0 <= i < |init| && display(init[i]) == k;
            assert init[i] == levels[i];
          }
        }
      }
      match LevelsByDisplay(init, display)
      case Failure(e) => Failure(e)
      case Success(byDisplay) =>
        if display(last) in byDisplay then Failure(IllegalState)
        else Success(byDisplay[display(last) := last])
  }

  /** extractInventoryLevel: the level whose display string spell-check picks for the candidate.
      An empty column (get(-1)), a last text without a space (substring(0, -1)), clashing display
      strings (toMap), a spell-check failure, or a returned string that names no level
      (Optional.of(null)) each throw. */
  function ExtractInventoryLevel<L(==)>(left: Column, spell: SpellCheck, levels: seq<L>, display: L -> string)
    : (r: Result<L, Exception>)
    ensures |left.fragments| == 0 ==> r == Failure(IndexOutOfBounds)
    ensures |left.fragments| > 0 && ' ' !in left.fragments[|left.fragments| - 1].text
            ==> r == Failure(IndexOutOfBounds)
    ensures r.Success? ==>
              && r.value in levels
              && |left.fragments| > 0
              && var candidate := InventoryCandidate(left.fragments[|left.fragments| - 1].text);
              && candidate.Success?
              && spell(candidate.value, Displays(levels, display)) == Success(display(r.value))
    ensures |left.fragments| > 0 && DistinctDisplays(levels, display) ==>
              var candidate := InventoryCandidate(left.fragments[|left.fragments| - 1].text);
              candidate.Success? ==>
                var closest := spell(candidate.value, Displays(levels, display));
                closest.Success? && closest.value in Displays(levels, display) ==>
                  r.Success? && display(r.value) == closest.value
  {
    var fragments := left.fragments;
    if |fragments| == 0 then Failure(IndexOutOfBounds)
    else
      var raw :- InventoryCandidate(fragments[|fragments| - 1].text);
      var byDisplay :- LevelsByDisplay(levels, display);
      var closest :- spell(raw, byDisplay.Keys);
      if closest in byDisplay then Success(byDisplay[closest]) else Failure(NullPointer)
  }

  // ---------------------------------------------------------------- quantity

  /** group(1), lower-cased, with its commas deleted: the text handed to Integer.valueOf. */
  function QuantityDigits(group1: string): (ds: string)
    requires forall i :: 0 <= i < |group1| ==> QuantityChar.Has(group1[i])
    ensures AllDigits(ds)
    ensures ds == Remove(group1, ',')
    ensures multiset(ds) == multiset(group1)[',' := 0]
  {
    var lowered := ToLower(group1);
    forall i | 0 <= i < |group1| ensures lowered[i] == group1[i] {
      assert QuantityChar.Has(group1[i]);
    }
    assert lowered == group1;
    var ds := Remove(lowered, ',');
    RemoveCounts(lowered, ',');
    assert forall i :: 0 <= i < |ds| ==> IsDigit(ds[i]) by {
      forall i | 0 <= i < |ds| ensures IsDigit(ds[i]) {
        assert ds[i] in ds;
        assert ds[i] in group1 && ds[i] != ',';
        var j :| 0 <= j < |group1| && group1[j] == ds[i];
        assert QuantityChar.Has(group1[j]);
      }
    }
    ds
  }

  /** extractQuantity: RIGHT_PATTERN found in the right text with its spaces removed (letters
      untouched); group 1 without commas as a 32-bit int. No match makes group() throw
      IllegalStateException; no digit left, or a value over Integer.MAX_VALUE, makes valueOf throw. */
  function ExtractQuantity(rightText: string): (r: Result<int, Exception>)
    ensures r.Success? ==> 0 <= r.value <= IntMax
    ensures r.Failure? ==> r.error == IllegalState || r.error == NumberFormat
    ensures FindRight(Remove(rightText, ' ')).None? ==> r == Failure(IllegalState)
    ensures FindRight(Remove(rightText, ' ')).Some? ==>
              var text := Remove(rightText, ' ');
              var ds := QuantityDigits(Group1(text, FindRight(text).value));
              && (r.Success? <==> |ds| > 0 && DigitsValue(ds) <= IntMax)
              && (r.Success? ==> r.value == DigitsValue(ds))
  {
    var text := Remove(rightText, ' ');
    match FindRight(text)
    case None => Failure(IllegalState)
    case Some(m) => ParseInt(QuantityDigits(Group1(text, m)))
  }

  // ---------------------------------------------------------------- price

  /** The right text as extractPrice matches it: lower-cased, spaces removed, then every 'l' read
      as '1' and every 's' as '5'. */
  function PriceText(rightText: string): (t: string)
    ensures ' ' !in t && 'l' !in t && 's' !in t
    ensures forall i :: 0 <= i < |t| ==> !('A' <= t[i] <= 'Z')
  {
    var lowered := ToLower(rightText);
    var compact := Remove(lowered, ' ');
    assert forall i :: 0 <= i < |compact| ==> !('A' <= compact[i] <= 'Z') by {
      forall i | 0 <= i < |compact| ensures !('A' <= compact[i] <= 'Z') {
        assert compact[i] in compact;
        assert compact[i] in lowered;
      }
    }
    Replace(Replace(compact, 'l', '1'), 's', '5')
  }

  /** The characters group 2 can hold once spaces are gone. */
  predicate PriceChar(c: char) {
    IsDigit(c) || IsSeparator(c) || c == 'k' || c == 'K'
  }

  /** The lower-cased group 2 ends with "k": the price is in thousands. Lower-casing makes an
      upper-case 'K' count as well. */
  function EndsWithK(group2: string): (thousands: bool)
    ensures thousands <==> |ToLower(group2)| > 0 && ToLower(group2)[|group2| - 1] == 'k'
    ensures thousands <==> |group2| > 0 && (group2[|group2| - 1] == 'k' || group2[|group2| - 1] == 'K')
  {
    |group2| > 0 && LowerChar(group2[|group2| - 1]) == 'k'
  }

  /** The second lower-casing in extractPrice changes nothing: group 2 is cut from the price
      text, which was lower-cased before matching. */
  lemma GroupTwoLowered(rightText: string, m: Match)
    requires IsPath(PriceText(rightText), m)
    ensures ToLower(Group2(PriceText(rightText), m)) == Group2(PriceText(rightText), m)
  {
    var text := PriceText(rightText);
    var g := Group2(text, m);
    forall i | 0 <= i < |g| ensures ToLower(g)[i] == g[i] {
      assert g[i] == text[m.PriceStart() + i];
    }
  }

  /** The text handed to Double.parseDouble: group 2 lower-cased with every 'k' deleted. */
  function PriceDigits(group2: string): (digits: string)
    requires forall i :: 0 <= i < |group2| ==> PriceChar(group2[i])
    ensures forall i :: 0 <= i < |digits| ==> IsDigit(digits[i]) || IsSeparator(digits[i])
  {
    var lowered := ToLower(group2);
    var digits := Remove(lowered, 'k');
    assert forall i :: 0 <= i < |digits| ==> IsDigit(digits[i]) || IsSeparator(digits[i]) by {
      forall i | 0 <= i < |digits| ensures IsDigit(digits[i]) || IsSeparator(digits[i]) {
        assert digits[i] in digits;
        assert digits[i] in lowered;
        var j :| 0 <= j < |lowered| && lowered[j] == digits[i];
        assert PriceChar(group2[j]);
      }
    }
    digits
  }

  /** The price in group 2: lower-case it, note a trailing 'k', delete every 'k', parse the rest as
      a double; a value of 1000 or more loses its thousands (DropCurrencyGlyph), then a 'k'
      multiplies by 1000. */
  function PriceFromGroup(group2: string): (r: Result<real, Exception>)
    requires forall i :: 0 <= i < |group2| ==> PriceChar(group2[i])
    ensures r.Success? ==> 0.0 <= r.value && r.value < (if EndsWithK(group2) then 1000000.0 else 1000.0)
    ensures r.Failure? ==> r.error == NumberFormat
    ensures r.Success? <==> ParseDecimal(PriceDigits(group2)).Success?
    ensures r.Success? ==>
              var v := ParseDecimal(PriceDigits(group2)).value;
              var units := if EndsWithK(group2) then r.value / 1000.0 else r.value;
              units <= v && MultipleOf1000(v - units) && (v < 1000.0 ==> units == v)
  {
    var thousands := EndsWithK(group2);
    var v :- ParseDecimal(PriceDigits(group2));
    var units := DropCurrencyGlyph(v);
    Success(if thousands then units * 1000.0 else units)
  }

  /** extractPrice: RIGHT_PATTERN found in PriceText, group 2 read by PriceFromGroup; no match
      makes group() throw IllegalStateException. */
  function ExtractPrice(rightText: string): (r: Result<real, Exception>)
    ensures r.Success? ==> 0.0 <= r.value < 1000000.0
    ensures r.Failure? ==> r.error == IllegalState || r.error == NumberFormat
    ensures FindRight(PriceText(rightText)).None? ==> r == Failure(IllegalState)
    ensures FindRight(PriceText(rightText)).Some? ==>
              var text := PriceText(rightText);
              var group2 := Group2(text, FindRight(text).value);
              (forall i :: 0 <= i < |group2| ==> PriceChar(group2[i])) && r == PriceFromGroup(group2)
  {
    var text := PriceText(rightText);
    match FindRight(text)
    case None => Failure(IllegalState)
    case Some(m) =>
      PriceGroupChars(text, m);
      PriceFromGroup(Group2(text, m))
  }

  /** With spaces gone, group 2 holds only digits, separators and k's. */
  lemma PriceGroupChars(text: string, m: Match)
    requires IsPath(text, m) && ' ' !in text
    ensures forall i :: 0 <= i < |Group2(text, m)| ==> PriceChar(Group2(text, m)[i])
  {
    var g := Group2(text, m);
    forall i | 0 <= i < |g| ensures PriceChar(g[i]) {
      assert g[i] == text[m.PriceStart() + i];
    }
  }

  /** The price does not depend on the letter case of the right text. */
  lemma PriceIgnoresCase(a: string, b: string)
    requires ToLower(a) == ToLower(b)
    ensures ExtractPrice(a) == ExtractPrice(b)
  {
  }

  /** A group without k's reaches Double.parseDouble unchanged. */
  lemma PriceDigitsPlain(group2: string)
    requires forall i :: 0 <= i < |group2| ==> PriceChar(group2[i])
    requires 'k' !in group2 && 'K' !in group2
    ensures PriceDigits(group2) == group2
  {
    ToLowerNoUpper(group2);
    RemoveAbsent(group2, 'k');
  }

  /** A trailing 'k' marks thousands and is not part of the number parsed. */
  lemma PriceDigitsTrailingK(group2: string)
    requires forall i :: 0 <= i < |group2| ==> PriceChar(group2[i])
    ensures forall i :: 0 <= i < |group2 + "k"| ==> PriceChar((group2 + "k")[i])
    ensures EndsWithK(group2 + "k")
    ensures PriceDigits(group2 + "k") == PriceDigits(group2)
  {
    var g := group2 + "k";
    forall i | 0 <= i < |g| ensures PriceChar(g[i]) {
      if i < |group2| { assert g[i] == group2[i]; }
    }
    assert ToLower(g) == ToLower(group2) + "k";
    RemoveAppend(ToLower(group2), "k", 'k');
    assert Remove("k", 'k') == [];
  }

  /** whole.frac is made of price characters, has no k, and parses to its decimal value. */
  lemma DecimalGroup(whole: string, frac: string)
    requires AllDigits(whole) && AllDigits(frac) && |whole| + |frac| > 0
    ensures var g := whole + "." + frac;
            && (forall i :: 0 <= i < |g| ==> PriceChar(g[i]))
            && 'k' !in g && 'K' !in g
            && ParseDecimal(g) == Success(DecimalValue(whole, frac))
  {
    var g := whole + "." + frac;
    forall i | 0 <= i < |g| ensures PriceChar(g[i]) && g[i] != 'k' && g[i] != 'K' {
      if i < |whole| { assert g[i] == whole[i]; }
      else if i > |whole| { assert g[i] == frac[i - |whole| - 1]; }
    }
    ParseDecimalPoint(whole, frac);
  }

  /** A plain decimal is its value once the currency glyph's thousands are dropped. */
  lemma PriceOfDecimal(whole: string, frac: string)
    requires AllDigits(whole) && AllDigits(frac) && |whole| + |frac| > 0
    ensures forall i :: 0 <= i < |whole + "." + frac| ==> PriceChar((whole + "." + frac)[i])
    ensures PriceFromGroup(whole + "." + frac) == Success(DropCurrencyGlyph(DecimalValue(whole, frac)))
  {
    var g := whole + "." + frac;
    DecimalGroup(whole, frac);
    assert !EndsWithK(g);
    PriceDigitsPlain(g);
  }

  /** A decimal followed by 'k' is a thousand times the glyph-corrected decimal. */
  lemma PriceOfThousands(whole: string, frac: string)
    requires AllDigits(whole) && AllDigits(frac) && |whole| + |frac| > 0
    ensures forall i :: 0 <= i < |whole + "." + frac + "k"| ==> PriceChar((whole + "." + frac + "k")[i])
    ensures PriceFromGroup(whole + "." + frac + "k").Success?
    ensures PriceFromGroup(whole + "." + frac + "k").value == DropCurrencyGlyph(DecimalValue(whole, frac)) * 1000.0
  {
    var g := whole + "." + frac;
    DecimalGroup(whole, frac);
    PriceDigitsTrailingK(g);
    PriceDigitsPlain(g);
    var v := DecimalValue(whole, frac);
    assert ParseDecimal(PriceDigits(g + "k")) == Success(v);
    var r := PriceFromGroup(g + "k");
    assert r.Success?;
    assert r.value == DropCurrencyGlyph(v) * 1000.0;
  }

  /** A comma in the part Double.parseDouble sees is a NumberFormatException. */
  lemma PriceWithComma(group2: string, i: nat)
    requires forall i :: 0 <= i < |group2| ==> PriceChar(group2[i])
    requires i < |group2| && group2[i] == ','
    ensures PriceFromGroup(group2) == Failure(NumberFormat)
  {
    var digits := PriceDigits(group2);
    var lowered := ToLower(group2);
    assert lowered[i] == ',';
    assert ',' in digits;
    var j :| 0 <= j < |digits| && digits[j] == ',';
    ParseDecimalComma(digits, j);
  }

  /** "1.5k" is 1500. */
  lemma PriceThousandsExample()
    ensures PriceFromGroup("1.5k") == Success(1500.0)
  {
    PriceOfThousands("1", "5");
    ThousandsExampleText();
  }

  lemma ThousandsExampleText()
    ensures AllDigits("1") && AllDigits("5")
    ensures "1" + "." + "5" + "k" == "1.5k"
    ensures DropCurrencyGlyph(DecimalValue("1", "5")) == 1.5
  {
    assert DigitsValue("1") == 1 && DigitsValue("5") == 5 && Pow10(1) == 10;
    assert DecimalValue("1", "5") == 1.5;
  }

  /** "1141.5", whose leading 1 is a misread currency glyph, is 141.5. */
  lemma PriceGlyphExample()
    ensures PriceFromGroup("1141.5") == Success(141.5)
  {
    PriceOfDecimal("1141", "5");
    GlyphExampleText();
  }

  lemma GlyphExampleText()
    ensures AllDigits("1141") && AllDigits("5")
    ensures "1141" + "." + "5" == "1141.5"
    ensures DropCurrencyGlyph(DecimalValue("1141", "5")) == 141.5
  {
    GlyphDigits("1", "11", "114", "1141");
    assert DigitsValue("5") == 5 && Pow10(1) == 10;
    assert DecimalValue("1141", "5") == 1141.5;
    DropCurrencyGlyphUnique(1141.5, 141.5);
  }

  /** DigitsValue("1141") == 1141, built one digit at a time. The literals are parameters fixed by
      the requires so that the verifier does not unfold DigitsValue on literal arguments, which
      costs more than the resource budget allows. */
  lemma GlyphDigits(a: string, b: string, c: string, d: string)
    requires a == "1" && b == "11" && c == "114" && d == "1141"
    ensures AllDigits(d) && DigitsValue(d) == 1141
  {
    assert DigitsValue(a) == 1;
    assert b == a + ['1'];
    DigitsValueSnoc(a, '1');
    assert c == b + ['4'];
    DigitsValueSnoc(b, '4');
    assert d == c + ['1'];
    DigitsValueSnoc(c, '1');
  }

  // ---------------------------------------------------------------- constructor

  /** new RawCommodityListing(left, right): the four extractions, each in its own try/catch. The
      right column's text comes from LocatedColumn.getText (`columnText`); the inventory levels
      are InventoryLevel.values() with their getString (`display`). */
  function NewListing<L(==)>(left: Column, right: Column, columnText: ColumnText, spell: SpellCheck,
                             levels: seq<L>, display: L -> string): (listing: RawCommodityListing<L>)
    ensures listing.commodity.None? <==> |left.fragments| == 0
    ensures listing.inventoryLevel.Some? ==> listing.inventoryLevel.value in levels
    ensures listing.quantity.Some? ==> 0 <= listing.quantity.value <= IntMax
    ensures listing.price.Some? ==> 0.0 <= listing.price.value < 1000000.0
    ensures listing.quantity.Some? ==> FindRight(Remove(columnText(right), ' ')).Some?
    ensures listing.price.Some? ==> FindRight(PriceText(columnText(right))).Some?
    ensures listing.commodity == ExtractCommodity(left).ToOption()
    ensures listing.inventoryLevel == ExtractInventoryLevel(left, spell, levels, display).ToOption()
    ensures listing.quantity == ExtractQuantity(columnText(right)).ToOption()
    ensures listing.price == ExtractPrice(columnText(right)).ToOption()
  {
    RawCommodityListing(
      ExtractCommodity(left).ToOption(),
      ExtractInventoryLevel(left, spell, levels, display).ToOption(),
      ExtractQuantity(columnText(right)).ToOption(),
      ExtractPrice(columnText(right)).ToOption())
  }

  /** Commodity and inventory level depend on the left column only, quantity and price on the
      right column only: what happens in one extraction never reaches another field. */
  lemma FieldsIndependent<L>(left: Column, left': Column, right: Column, right': Column,
                                 columnText: ColumnText, spell: SpellCheck, levels: seq<L>, display: L -> string)
    ensures var a := NewListing(left, right, columnText, spell, levels, display);
            var b := NewListing(left, right', columnText, spell, levels, display);
            a.commodity == b.commodity && a.inventoryLevel == b.inventoryLevel
    ensures var a := NewListing(left, right, columnText, spell, levels, display);
            var b := NewListing(left', right, columnText, spell, levels, display);
            a.quantity == b.quantity && a.price == b.price
  {
  }
}

=== FILE: failures.dfy ===
/** The Java exceptions the extractors throw or catch, and the collaborators whose bodies
    are not part of this model, as function types. */
module Failures {
  import opened Wrappers
  import opened Ocr

  /** Exceptions by class; only LocationNotFoundException carries data (the flattened fragments). */
  datatype Exception =
    | NoCloseString                               // NoCloseStringException from StringUtil.spellCheck
    | NoSuchElement                               // java.util.NoSuchElementException
    | LocationNotFound(fragments: seq<Fragment>)  // LocationNotFoundException
    | IndexOutOfBounds                            // IndexOutOfBoundsException and its String variant
    | IllegalState                                // IllegalStateException
    | NumberFormat                                // NumberFormatException
    | NullPointer                                 // NullPointerException
    | Unchecked(name: string)                     // any other runtime exception, by class name

  /** StringUtil.spellCheck(candidate, vocabulary): the closest vocabulary entry, or an exception
      (NoCloseString when nothing is close enough). */
  type SpellCheck = (string, set<string>) -> Result<string, Exception>

  /** OcrUtil.findFragmentClosestTo(fragments, phrase). */
  type ClosestFragment = (seq<Fragment>, string) -> Result<Fragment, Exception>

  /** LocatedFragment.equals. */
  type FragmentEquality = (Fragment, Fragment) -> bool

  /** LocatedColumn.getText. */
  type ColumnText = Column -> string
}

=== FILE: listing_examples.dfy ===
/** Worked kiosk rows: what RawCommodityListing extracts from concrete right-column texts. The
    helper lemmas compute one step each (a lower-cased text, a removal, a match, a group). Some
    take their literals as parameters fixed by `requires` (RowLower, RowLowerTail, RowRemove,
    RowReplaceS): the verifier then reasons from the generic append lemmas instead of unfolding
    the recursive string functions on literal arguments, which would exceed the resource budget. */
module ListingExamples {
  import opened Wrappers
  import opened Text
  import opened Numbers
  import opened Failures
  import opened RightPattern
  import opened CommodityListing

  // ---------------------------------------------------------------- "1,234 SCU" over "¤1.5k"

  lemma RowLower(quantity: string, gap: string, tail: string)
    requires quantity == "1,234" && gap == " " && tail == "SCU\n\U{A4}1.5k"
    ensures ToLower(quantity) == quantity && ToLower(gap) == gap
    ensures ToLower(tail) == "scu\n\U{A4}1.5k"
  {
    ToLowerNoUpper(quantity);
    ToLowerNoUpper(gap);
    RowLowerTail("SCU", "\n\U{A4}1.5k");
  }

  lemma RowLowerTail(unit: string, tail: string)
    requires unit == "SCU" && tail == "\n\U{A4}1.5k"
    ensures unit + tail == "SCU\n\U{A4}1.5k"
    ensures ToLower(unit + tail) == "scu" + tail
  {
    ToLowerAppend(unit, tail);
    ToLowerNoUpper(tail);
    assert ToLower(unit) == "scu";
  }

  lemma RowRemove(tail: string)
    requires tail == "SCU\n\U{A4}1.5k" || tail == "scu\n\U{A4}1.5k"
    ensures Remove("1,234" + " " + tail, ' ') == "1,234" + tail
  {
    RemoveAbsent("1,234", ' ');
    RemoveAbsent(tail, ' ');
    RemoveAppend("1,234" + " ", tail, ' ');
    RemoveAppend("1,234", " ", ' ');
    assert Remove(" ", ' ') == "";
  }

  lemma RowPriceText()
    ensures PriceText("1,234 SCU\n\U{A4}1.5k") == "1,2345cu\n\U{A4}1.5k"
  {
    assert "1,234" + " " + "SCU\n\U{A4}1.5k" == "1,234 SCU\n\U{A4}1.5k";
    assert "1,234" + "scu\n\U{A4}1.5k" == "1,234scu\n\U{A4}1.5k";
    ToLowerAppend("1,234" + " ", "SCU\n\U{A4}1.5k");
    ToLowerAppend("1,234", " ");
    RowLower("1,234", " ", "SCU\n\U{A4}1.5k");
    RowRemove("scu\n\U{A4}1.5k");
    RowReplace();
  }

  lemma RowReplace()
    ensures Replace(Replace("1,234scu\n\U{A4}1.5k", 'l', '1'), 's', '5') == "1,2345cu\n\U{A4}1.5k"
  {
    RowReplaceConcat();
    RowNoL();
    RowReplaceS("1,234", "cu\n\U{A4}1.5k");
  }

  lemma RowReplaceS(head: string, tail: string)
    requires head == "1,234" && tail == "cu\n\U{A4}1.5k"
    ensures Replace(head + "s" + tail, 's', '5') == head + "5" + tail
  {
    ReplaceAbsent(head, 's', '5');
    ReplaceAbsent(tail, 's', '5');
    ReplaceAppend(head, "s", 's', '5');
    ReplaceAppend(head + "s", tail, 's', '5');
  }

  /** The replaced row text, split around its one 's'. */
  lemma RowReplaceConcat()
    ensures "1,234" + "s" + "cu\n\U{A4}1.5k" == "1,234scu\n\U{A4}1.5k"
    ensures "1,234" + "5" + "cu\n\U{A4}1.5k" == "1,2345cu\n\U{A4}1.5k"
  {
  }

  /** The row's price text has no 'l' to read as '1'. */
  lemma RowNoL()
    ensures Replace("1,234scu\n\U{A4}1.5k", 'l', '1') == "1,234scu\n\U{A4}1.5k"
  {
    ReplaceAbsent("1,234scu\n\U{A4}1.5k", 'l', '1');
  }

  lemma RowMatches()
    ensures FindRight("1,234SCU\n\U{A4}1.5k") == Some(Match(0, 0, 5, 8, 9, 14))
  {
    var s := "1,234SCU\n\U{A4}1.5k";
    assert RunEnd(s, 14, KOrSpace) == 14;
    assert RunEnd(s, 13, KOrSpace) == 14;
    assert RunEnd(s, 12, Digit) == 13;
    assert RunEnd(s, 10, Digit) == 11;
    assert LongestPrice(s, 10) == Some(14);
    assert PriceAfter(s, 9) == Some(14);
    assert TryBreak(s, 0, 0, 5, 8) == Some(Match(0, 0, 5, 8, 9, 14));
    assert RunEnd(s, 5, NonTerminator) == 8;
    assert SearchGroup1End(s, 0, 0, 5) == Some(Match(0, 0, 5, 8, 9, 14));
    assert RunEnd(s, 0, QuantityChar) == 5;
    assert RunEnd(s, 0, NonDigit) == 0;
  }

  lemma RowPriceMatches()
    ensures FindRight("1,2345cu\n\U{A4}1.5k") == Some(Match(0, 0, 6, 8, 9, 14))
  {
    var s := "1,2345cu\n\U{A4}1.5k";
    assert RunEnd(s, 14, KOrSpace) == 14;
    assert RunEnd(s, 13, KOrSpace) == 14;
    assert RunEnd(s, 12, Digit) == 13;
    assert RunEnd(s, 10, Digit) == 11;
    assert LongestPrice(s, 10) == Some(14);
    assert PriceAfter(s, 9) == Some(14);
    assert TryBreak(s, 0, 0, 6, 8) == Some(Match(0, 0, 6, 8, 9, 14));
    assert RunEnd(s, 6, NonTerminator) == 8;
    assert SearchGroup1End(s, 0, 0, 6) == Some(Match(0, 0, 6, 8, 9, 14));
    assert RunEnd(s, 0, QuantityChar) == 6;
    assert RunEnd(s, 0, NonDigit) == 0;
  }

  lemma RowQuantityGroup()
    ensures FindRight("1,234SCU\n\U{A4}1.5k").Some?
    ensures Group1("1,234SCU\n\U{A4}1.5k", FindRight("1,234SCU\n\U{A4}1.5k").value) == "1,234"
  {
    RowMatches();
  }

  lemma RowPricePath()
    ensures IsPath("1,2345cu\n\U{A4}1.5k", Match(0, 0, 6, 8, 9, 14))
  {
    RowPriceMatches();
  }

  lemma RowPriceGroup()
    ensures IsPath("1,2345cu\n\U{A4}1.5k", Match(0, 0, 6, 8, 9, 14))
    ensures Group2("1,2345cu\n\U{A4}1.5k", Match(0, 0, 6, 8, 9, 14)) == "1.5k"
  {
    RowPricePath();
    assert "1,2345cu\n\U{A4}1.5k"[10..14] == "1.5k";
  }

  lemma RowQuantityDigits()
    ensures QuantityDigits("1,234") == "1234"
  {
    ToLowerNoUpper("1,234");
    assert Remove("1,234", ',') == "1234";
  }

  lemma RowQuantityValue()
    ensures ParseInt("1234") == Success(1234)
  {
    assert DigitsValue("1234") == 1234 by {
      assert "1234"[..3] == "123" && "123"[..2] == "12" && "12"[..1] == "1" && "1"[..0] == "";
    }
  }

  /** A kiosk row "1,234 SCU" over "\U{A4}1.5k" holds 1234 units. */
  lemma RowQuantityExample()
    ensures ExtractQuantity("1,234 SCU\n\U{A4}1.5k") == Success(1234)
  {
    assert "1,234" + " " + "SCU\n\U{A4}1.5k" == "1,234 SCU\n\U{A4}1.5k";
    assert "1,234" + "SCU\n\U{A4}1.5k" == "1,234SCU\n\U{A4}1.5k";
    RowRemove("SCU\n\U{A4}1.5k");
    RowQuantityGroup();
    RowQuantityDigits();
    RowQuantityValue();
  }

  /** The same row costs 1500 each. The two fields come from different matches: in the price text
      "SCU" has become "5cu", so group 1 there is "1,2345". */
  lemma RowPriceExample()
    ensures ExtractPrice("1,234 SCU\n\U{A4}1.5k") == Success(1500.0)
  {
    RowPriceText();
    RowPriceMatches();
    RowPriceGroup();
    PriceThousandsExample();
  }

  // ---------------------------------------------------------------- "7x" over "sl"

  lemma MisreadTexts()
    ensures Remove("7x\nsl", ' ') == "7x\nsl"
    ensures PriceText("7x\nsl") == "7x\n51"
  {
    MisreadLower();
    MisreadReplace();
  }

  lemma MisreadLower()
    ensures ToLower("7x\nsl") == "7x\nsl"
    ensures Remove("7x\nsl", ' ') == "7x\nsl"
  {
    ToLowerNoUpper("7x\nsl");
    RemoveAbsent("7x\nsl", ' ');
  }

  lemma MisreadReplace()
    ensures Replace(Replace("7x\nsl", 'l', '1'), 's', '5') == "7x\n51"
  {
    assert Replace("7x\nsl", 'l', '1') == "7x\ns1";
  }

  lemma MisreadMatches()
    ensures FindRight("7x\nsl").None?
    ensures FindRight("7x\n51") == Some(Match(0, 0, 1, 2, 3, 5))
  {
    var s := "7x\n51";
    assert RunEnd(s, 5, KOrSpace) == 5;
    assert RunEnd(s, 4, Digit) == 5;
    assert LongestPrice(s, 4) == Some(5);
    assert PriceAfter(s, 3) == Some(5);
    assert TryBreak(s, 0, 0, 1, 2) == Some(Match(0, 0, 1, 2, 3, 5));
    assert RunEnd(s, 1, NonTerminator) == 2;
    assert SearchGroup1End(s, 0, 0, 1) == Some(Match(0, 0, 1, 2, 3, 5));
    assert RunEnd(s, 0, QuantityChar) == 1;
    assert RunEnd(s, 0, NonDigit) == 0;
  }

  lemma MisreadGroup()
    ensures FindRight("7x\n51").Some? && Group2("7x\n51", FindRight("7x\n51").value) == "1"
  {
    MisreadMatches();
  }

  lemma PriceOfOne()
    ensures PriceFromGroup("1") == Success(1.0)
  {
    PriceDigitsPlain("1");
    ParseDecimalDigits("1");
    assert DigitsValue("1") == 1;
  }

  /** "7x" over "sl": the quantity text has no digit on its second line, so RIGHT_PATTERN does not
      match and the quantity is absent, while the price text reads "sl" as "51" and yields 1. */
  lemma DifferentMatches()
    ensures ExtractQuantity("7x\nsl") == Failure(IllegalState)
    ensures ExtractPrice("7x\nsl") == Success(1.0)
  {
    MisreadTexts();
    MisreadMatches();
    MisreadGroup();
    PriceOfOne();
  }
}

=== FILE: location_reader.dfy ===
/** CommodityLocationReader: the kiosk's location is the text of the fragment that follows the
    "your inventories" heading, spell-checked against the known locations. */
module LocationReader {
  import opened Wrappers
  import opened Ocr
  import opened Failures

  /** The heading the location follows. */
  const YourInventories: string := "your inventories"

  /** Fragment `i` is the first one equal to `anchor`: where the iterator scan stops. */
  ghost predicate FirstAnchorAt(fragments: seq<Fragment>, anchor: Fragment, same: FragmentEquality, i: int) {
    && 0 <= i < |fragments|
    && same(fragments[i], anchor)
    && forall j :: 0 <= j < i ==> !same(fragments[j], anchor)
  }

  /** No fragment equals `anchor`: the scan runs off the end. */
  ghost predicate NoAnchor(fragments: seq<Fragment>, anchor: Fragment, same: FragmentEquality) {
    forall j :: 0 <= j < |fragments| ==> !same(fragments[j], anchor)
  }

  /** The iterator scan of extractLocation, resumed at position `from`: the index of the first
      fragment at or after `from` that equals `anchor`, if there is one. */
  function AnchorIndex(fragments: seq<Fragment>, anchor: Fragment, same: FragmentEquality, from: nat)
    : (i: Option<nat>)
    requires from <= |fragments|
    requires forall j :: 0 <= j < from ==> !same(fragments[j], anchor)
    ensures i.Some? <==> !NoAnchor(fragments, anchor, same)
    ensures i.Some? ==> FirstAnchorAt(fragments, anchor, same, i.value)
    decreases |fragments| - from
  {
    if from == |fragments| then None
    else if same(fragments[from], anchor) then Some(from)
    else AnchorIndex(fragments, anchor, same, from + 1)
  }

  /** Only one position can be the first equal to the anchor. */
  lemma FirstAnchorUnique(fragments: seq<Fragment>, anchor: Fragment, same: FragmentEquality, i: int, k: int)
    requires FirstAnchorAt(fragments, anchor, same, i) && FirstAnchorAt(fragments, anchor, same, k)
    ensures i == k
  {
  }

  /** The spell-check of the raw location and its catch clauses: a match is the location, no close
      match is an absent location, NoSuchElementException becomes LocationNotFoundException over
      all fragments, and anything else propagates. */
  function SpellOutcome(raw: string, spell: SpellCheck, locations: set<string>, fragments: seq<Fragment>)
    : (r: Result<Option<string>, Exception>)
    ensures spell(raw, locations).Success? ==> r == Success(Some(spell(raw, locations).value))
    ensures spell(raw, locations) == Failure(NoCloseString) ==> r == Success(None)
    ensures spell(raw, locations) == Failure(NoSuchElement) ==> r == Failure(LocationNotFound(fragments))
    ensures spell(raw, locations).Failure? && spell(raw, locations).error !in {NoCloseString, NoSuchElement}
            ==> r == Failure(spell(raw, locations).error)
  {
    match spell(raw, locations)
    case Success(location) => Success(Some(location))
    case Failure(NoCloseString) => Success(None)
    case Failure(NoSuchElement) => Failure(LocationNotFound(fragments))
    case Failure(e) => Failure(e)
  }

  /** extractLocation. `closest` is OcrUtil.findFragmentClosestTo, `same` is LocatedFragment.equals,
      `spell` is StringUtil.spellCheck and `locations` is LocationRepository.findAllLocations(). */
  function ExtractLocation(result: OcrResult, closest: ClosestFragment, same: FragmentEquality,
                           spell: SpellCheck, locations: set<string>): (r: Result<Option<string>, Exception>)
    ensures var fragments := Flatten(result.columns);
            closest(fragments, YourInventories).Failure? ==> r == Failure(closest(fragments, YourInventories).error)
    ensures var fragments := Flatten(result.columns);
            var anchor := closest(fragments, YourInventories);
            anchor.Success? && NoAnchor(fragments, anchor.value, same) ==> r == Failure(LocationNotFound(fragments))
    ensures var fragments := Flatten(result.columns);
            var anchor := closest(fragments, YourInventories);
            forall i :: anchor.Success? && FirstAnchorAt(fragments, anchor.value, same, i) ==>
              && (i == |fragments| - 1 ==> r == Failure(NoSuchElement))
              && (i < |fragments| - 1 ==>
                    var checked := spell(fragments[i + 1].text, locations);
                    && (checked.Success? ==> r == Success(Some(checked.value)))
                    && (checked == Failure(NoCloseString) ==> r == Success(None))
                    && (checked == Failure(NoSuchElement) ==> r == Failure(LocationNotFound(fragments)))
                    && (checked.Failure? && checked.error !in {NoCloseString, NoSuchElement} ==> r == Failure(checked.error)))
  {
    var fragments := Flatten(result.columns);
    var anchor :- closest(fragments, YourInventories);
    match AnchorIndex(fragments, anchor, same, 0)
    case None => Failure(LocationNotFound(fragments))
    case Some(i) =>
      forall k | FirstAnchorAt(fragments, anchor, same, k) ensures k == i {
        FirstAnchorUnique(fragments, anchor, same, i, k);
      }
      if i + 1 == |fragments| then Failure(NoSuchElement)
      else SpellOutcome(fragments[i + 1].text, spell, locations, fragments)
  }

  /** read: OCR of the capture (`capture`, its outcome) then extractLocation; every exception on
      the way is swallowed into an absent location. */
  function Read(capture: Result<OcrResult, Exception>, closest: ClosestFragment, same: FragmentEquality,
                spell: SpellCheck, locations: set<string>): (r: Option<string>)
    ensures capture.Failure? ==> r == None
    ensures capture.Success? && ExtractLocation(capture.value, closest, same, spell, locations).Failure? ==> r == None
    ensures r.Some? ==> capture.Success? && ExtractLocation(capture.value, closest, same, spell, locations) == Success(r)
    ensures capture.Success? && ExtractLocation(capture.value, closest, same, spell, locations).Success?
            ==> r == ExtractLocation(capture.value, closest, same, spell, locations).value
    ensures r.Some? ==>
              && capture.Success?
              && var fragments := Flatten(capture.value.columns);
              && var anchor := closest(fragments, YourInventories);
              && anchor.Success?
              && exists i :: FirstAnchorAt(fragments, anchor.value, same, i) && i + 1 < |fragments|
                             && spell(fragments[i + 1].text, locations) == Success(r.value)
  {
    match capture
    case Failure(_) => None
    case Success(result) =>
      match ExtractLocation(result, closest, same, spell, locations)
      case Success(location) =>
        ghost var fragments := Flatten(result.columns);
        if location.Some? then
          var anchor := closest(fragments, YourInventories).value;
          var i := AnchorIndex(fragments, anchor, same, 0).value;
          assert FirstAnchorAt(fragments, anchor, same, i);
          location
        else location
      case Failure(_) => None
  }

  /** The heading ends the first column and the location starts the second: flattening joins the
      columns, so the location is still the heading's successor. */
  lemma LocationAcrossColumns(closest: ClosestFragment, same: FragmentEquality, spell: SpellCheck,
                              locations: set<string>, heading: Fragment, place: Fragment, location: string)
    requires closest([heading, place], YourInventories) == Success(heading)
    requires same(heading, heading)
    requires spell(place.text, locations) == Success(location)
    ensures Read(Success(OcrResult([Column([heading]), Column([place])])), closest, same, spell, locations)
            == Some(location)
  {
    var columns := [Column([heading]), Column([place])];
    assert Flatten(columns) == [heading, place] by {
      assert columns[1..] == [Column([place])];
      assert columns[1..][1..] == [];
      assert Flatten(columns[1..]) == [place] + Flatten([]);
      assert Flatten(columns) == [heading] + Flatten(columns[1..]);
    }
    assert FirstAnchorAt([heading, place], heading, same, 0);
  }
}

=== FILE: numbers.dfy ===
/** Integer.valueOf and Double.parseDouble as the listing extractor uses them, and the price
    correction for a currency glyph read as a digit. Values are exact: `int` and `real`. */
module Numbers {
  import opened Wrappers
  import opened Text
  import opened Failures

  /** Integer.MAX_VALUE and Integer.MIN_VALUE. */
  const IntMax: int := 0x7FFF_FFFF
  const IntMin: int := -0x8000_0000

  /** Integer.valueOf(s) on ASCII text: an optional sign, then at least one digit, in 32-bit range. */
  function ParseInt(s: string): (r: Result<int, Exception>)
    ensures r.Success? ==> IntMin <= r.value <= IntMax
    ensures r.Failure? ==> r.error == NumberFormat
    ensures AllDigits(s) ==> (r.Success? <==> |s| > 0 && DigitsValue(s) <= IntMax)
    ensures AllDigits(s) && r.Success? ==> r.value == DigitsValue(s)
  {
    var signed := |s| > 0 && (s[0] == '-' || s[0] == '+');
    var digits := if signed then s[1..] else s;
    if |digits| == 0 || !AllDigits(digits) then Failure(NumberFormat)
    else if signed && s[0] == '-' then
      if DigitsValue(digits) <= -IntMin then Success(0 - DigitsValue(digits)) else Failure(NumberFormat)
    else if DigitsValue(digits) <= IntMax then Success(DigitsValue(digits))
    else Failure(NumberFormat)
  }

  /** whole.frac as an exact decimal value. */
  function DecimalValue(whole: string, frac: string): (v: real)
    requires AllDigits(whole) && AllDigits(frac)
    ensures DigitsValue(whole) as real <= v < DigitsValue(whole) as real + 1.0
  {
    var f := DigitsValue(frac) as real;
    var p := Pow10(|frac|) as real;
    FractionBelowOne(f, p);
    DigitsValue(whole) as real + f / p
  }

  lemma FractionBelowOne(f: real, p: real)
    requires 0.0 <= f < p
    ensures f / p < 1.0
  {
    var q := f / p;
    assert q * p == f;
    assert (1.0 - q) * p == p - f;
  }

  /** The characters ParseDecimal is defined on. */
  predicate DecimalChars(w: string) {
    forall i :: 0 <= i < |w| ==> IsDigit(w[i]) || w[i] == '.' || w[i] == ','
  }

  /** Some character of `w` is a digit. */
  predicate HasDigit(w: string) {
    exists i :: 0 <= i < |w| && IsDigit(w[i])
  }

  /** Double.parseDouble on text made of digits, '.' and ',': digits with at most one '.' and at
      least one digit parse (exactly, as a real); a ',' or a second '.' is a NumberFormatException. */
  function ParseDecimal(w: string): (r: Result<real, Exception>)
    requires DecimalChars(w)
    ensures r.Success? <==> ',' !in w && multiset(w)['.'] <= 1 && HasDigit(w)
    ensures r.Success? ==> 0.0 <= r.value
    ensures r.Failure? ==> r.error == NumberFormat
  {
    if ',' in w then Failure(NumberFormat)
    else match IndexOf(w, '.')
      case None =>
        NoPointParts(w);
        if |w| == 0 then Failure(NumberFormat)
        else Success(DigitsValue(w) as real)
      case Some(i) =>
        var whole := w[..i];
        var frac := w[i + 1..];
        PointParts(w, i);
        if '.' in frac then Failure(NumberFormat)
        else if |whole| == 0 && |frac| == 0 then Failure(NumberFormat)
        else Success(DecimalValue(whole, frac))
  }

  /** Without a comma or a point, the text is all digits, and has a digit exactly when non-empty. */
  lemma NoPointParts(w: string)
    requires DecimalChars(w) && ',' !in w && '.' !in w
    ensures AllDigits(w) && multiset(w)['.'] == 0
    ensures HasDigit(w) <==> |w| > 0
  {
    forall j | 0 <= j < |w| ensures IsDigit(w[j]) {
      assert w[j] in w;
    }
    if |w| > 0 {
      assert IsDigit(w[0]);
    }
  }

  /** Around the first point: one '.' more than in the fraction; with no second point, both sides
      are digits, and there is a digit exactly when a side is non-empty. */
  lemma PointParts(w: string, i: nat)
    requires DecimalChars(w) && ',' !in w && IndexOf(w, '.') == Some(i)
    ensures multiset(w)['.'] == multiset(w[i + 1..])['.'] + 1
    ensures '.' !in w[i + 1..] ==> AllDigits(w[..i]) && AllDigits(w[i + 1..]) && multiset(w[i + 1..])['.'] == 0
    ensures '.' !in w[i + 1..] ==> (HasDigit(w) <==> i > 0 || i + 1 < |w|)
  {
    var whole, frac := w[..i], w[i + 1..];
    assert w == whole + ['.'] + frac;
    assert multiset(w) == multiset(whole) + multiset{'.'} + multiset(frac);
    assert multiset(whole)['.'] == 0;
    if '.' !in frac {
      forall j | 0 <= j < |whole| ensures IsDigit(whole[j]) {
        assert whole[j] == w[j];
        assert w[j] in w;
      }
      forall j | 0 <= j < |frac| ensures IsDigit(frac[j]) {
        assert frac[j] == w[i + 1 + j];
        assert w[i + 1 + j] in w;
      }
      if i > 0 {
        assert IsDigit(w[0]);
      } else if i + 1 < |w| {
        assert IsDigit(w[i + 1]);
      } else {
        assert w == ['.'];
      }
    }
  }

  /** A comma anywhere is a NumberFormatException. */
  lemma ParseDecimalComma(w: string, i: nat)
    requires DecimalChars(w)
    requires i < |w| && w[i] == ','
    ensures ParseDecimal(w) == Failure(NumberFormat)
  {
  }

  /** A digit string parses to its decimal value. */
  lemma ParseDecimalDigits(w: string)
    requires |w| > 0 && AllDigits(w)
    ensures ParseDecimal(w) == Success(DigitsValue(w) as real)
  {
    assert IndexOf(w, '.').None?;
  }

  /** whole.frac parses to whole + frac / 10^|frac|. */
  lemma ParseDecimalPoint(whole: string, frac: string)
    requires AllDigits(whole) && AllDigits(frac) && |whole| + |frac| > 0
    ensures ParseDecimal(whole + "." + frac) == Success(DecimalValue(whole, frac))
  {
    var w := whole + "." + frac;
    assert w[|whole|] == '.';
    assert w[..|whole|] == whole;
    assert w[|whole| + 1..] == frac;
    assert '.' !in whole;
    assert IndexOf(w, '.') == Some(|whole|);
  }

  /** x is a whole multiple of 1000. */
  predicate MultipleOf1000(x: real) {
    (x / 1000.0).Floor as real == x / 1000.0
  }

  /** A price of 1000 or more is replaced by its remainder modulo 1000; smaller prices are kept.
      Four or more digits before the decimal separator mean the currency glyph was read as digits,
      and the remainder drops them. */
  function DropCurrencyGlyph(v: real): (r: real)
    requires 0.0 <= v
    ensures 0.0 <= r < 1000.0
    ensures v < 1000.0 ==> r == v
    ensures r <= v && MultipleOf1000(v - r)
  {
    if v >= 1000.0 then
      var n := (v / 1000.0).Floor;
      assert (v - (v - 1000.0 * n as real)) / 1000.0 == n as real;
      v - 1000.0 * n as real
    else
      v
  }

  /** DropCurrencyGlyph leaves the one value in [0, 1000) that differs from v by a multiple of 1000. */
  lemma DropCurrencyGlyphUnique(v: real, r: real)
    requires 0.0 <= v && 0.0 <= r < 1000.0 && MultipleOf1000(v - r)
    ensures DropCurrencyGlyph(v) == r
  {
    var c := DropCurrencyGlyph(v);
    var n := ((v - r) / 1000.0).Floor;
    var m := ((v - c) / 1000.0).Floor;
    assert c - r == 1000.0 * (n - m) as real;
    assert -1000.0 < 1000.0 * (n - m) as real < 1000.0;
    assert n - m == 0;
  }
}

=== FILE: ocr.dfy ===
/** The lexical model of an OCR result: columns of positioned text fragments. */
module Ocr {

  /** Bounding box of a detection, in screen pixels. */
  datatype Rectangle = Rectangle(x: int, y: int, width: int, height: int)

  /** One OCR-detected run of text (LocatedFragment). */
  datatype Fragment = Fragment(text: string, box: Rectangle)

  /** Fragments aligned vertically on screen, top to bottom (LocatedColumn). */
  datatype Column = Column(fragments: seq<Fragment>)

  /** Columns left to right, as detected (OcrResult). */
  datatype OcrResult = OcrResult(columns: seq<Column>)

  /** All fragments of `columns` in one sequence, column by column and, within a column, top to
      bottom, as CommodityLocationReader streams them before scanning. */
  function Flatten(columns: seq<Column>): (fragments: seq<Fragment>)
    ensures forall f :: f in fragments <==> exists i :: 0 <= i < |columns| && f in columns[i].fragments
    decreases |columns|
  {
    if |columns| == 0 then []
    else
      var rest := Flatten(columns[1..]);
      forall f | f in columns[0].fragments + rest
        ensures exists i :: 0 <= i < |columns| && f in columns[i].fragments
      {
        if f !in columns[0].fragments {
          var i :| 0 <= i < |columns[1..]| && f in columns[1..][i].fragments;
          assert columns[i + 1] == columns[1..][i];
        }
      }
      forall f, i | 0 <= i < |columns| && f in columns[i].fragments
        ensures f in columns[0].fragments + rest
      {
        if i > 0 {
          assert columns[1..][i - 1] == columns[i];
        }
      }
      columns[0].fragments + rest
  }

  /** Flattening distributes over concatenation of column sequences. */
  lemma {:induction false} FlattenAppend(a: seq<Column>, b: seq<Column>)
    ensures Flatten(a + b) == Flatten(a) + Flatten(b)
    decreases |a|
  {
    if |a| == 0 {
      assert a + b == b;
    } else {
      assert (a + b)[1..] == a[1..] + b;
      FlattenAppend(a[1..], b);
    }
  }

  /** Where fragment `j` of column `i` lands: after every fragment of the columns before it,
      and after the `j` fragments above it in its own column. */
  lemma FlattenPosition(columns: seq<Column>, i: nat, j: nat)
    requires i < |columns| && j < |columns[i].fragments|
    ensures |Flatten(columns[..i])| + j < |Flatten(columns)|
    ensures Flatten(columns)[|Flatten(columns[..i])| + j] == columns[i].fragments[j]
  {
    assert columns == columns[..i] + ([columns[i]] + columns[i + 1..]);
    FlattenAppend(columns[..i], [columns[i]] + columns[i + 1..]);
    assert Flatten([columns[i]] + columns[i + 1..]) == columns[i].fragments + Flatten(columns[i + 1..]) by {
      assert ([columns[i]] + columns[i + 1..])[1..] == columns[i + 1..];
    }
  }

  /** Every flattened fragment comes from some column, at the place FlattenPosition gives. */
  lemma {:induction false} FlattenOrigin(columns: seq<Column>, k: nat)
    requires k < |Flatten(columns)|
    ensures exists i, j :: 0 <= i < |columns| && 0 <= j < |columns[i].fragments|
                           && k == |Flatten(columns[..i])| + j
                           && Flatten(columns)[k] == columns[i].fragments[j]
    decreases |columns|
  {
    assert |columns| > 0;
    assert columns[..0] == [];
    if k < |columns[0].fragments| {
      assert k == |Flatten(columns[..0])| + k;
      assert Flatten(columns)[k] == columns[0].fragments[k];
    } else {
      FlattenOrigin(columns[1..], k - |columns[0].fragments|);
      var i, j :| 0 <= i < |columns[1..]| && 0 <= j < |columns[1..][i].fragments|
                  && k - |columns[0].fragments| == |Flatten(columns[1..][..i])| + j
                  && Flatten(columns[1..])[k - |columns[0].fragments|] == columns[1..][i].fragments[j];
      assert columns[..i + 1] == [columns[0]] + columns[1..][..i];
      FlattenAppend([columns[0]], columns[1..][..i]);
      assert Flatten([columns[0]]) == columns[0].fragments by {
        assert [columns[0]][1..] == [];
      }
      assert k == |Flatten(columns[..i + 1])| + j;
    }
  }
}

=== FILE: right_pattern.dfy ===
/** A dedicated matcher for RawCommodityListing.RIGHT_PATTERN,

      \D*([0-9,]+).+\R.((\d+[.,])?\d+[k ]*)      compiled with CASE_INSENSITIVE,

    run as `Matcher.find()` from the start of the input: the leftmost starting position wins and,
    at that position, the first successful path in java.util.regex's backtracking order, where every
    quantifier is greedy (longest first) and `\R` tries CR LF before a single line-break character.

    A match is described by the positions where each part of the pattern ends (`IsPath`), and Java's
    preference between two matches by `Before`; `FindRight` returns the `Before`-least path. */
module RightPattern {
  import opened Wrappers
  import opened Text

  /** The character classes of the pattern (no UNICODE_CASE, no DOTALL, no UNIX_LINES). */
  datatype CharSet =
    | Digit          // \d
    | NonDigit       // \D
    | QuantityChar   // [0-9\,]
    | NonTerminator  // .
    | KOrSpace       // [k ] under CASE_INSENSITIVE
  {
    predicate Has(c: char) {
      match this
      case Digit => IsDigit(c)
      case NonDigit => !IsDigit(c)
      case QuantityChar => IsDigit(c) || c == ','
      case NonTerminator => !IsLineTerminator(c)
      case KOrSpace => c == 'k' || c == 'K' || c == ' '
    }
  }

  /** The characters `.` does not match: LF, CR, NEL, LINE SEPARATOR, PARAGRAPH SEPARATOR. */
  predicate IsLineTerminator(c: char) {
    c == '\n' || c == '\r' || c == '\U{85}' || c == '\U{2028}' || c == '\U{2029}'
  }

  /** The single characters `\R` matches: LF, VT, FF, CR, NEL, LINE SEPARATOR, PARAGRAPH SEPARATOR. */
  predicate IsLineBreakChar(c: char) {
    ('\n' <= c <= '\r') || c == '\U{85}' || c == '\U{2028}' || c == '\U{2029}'
  }

  /** [\.\,] */
  predicate IsSeparator(c: char) {
    c == '.' || c == ','
  }

  /** Every character of s[i..j] is in `cs`. */
  ghost predicate Span(s: string, i: int, j: int, cs: CharSet) {
    0 <= i <= j <= |s| && forall k :: i <= k < j ==> cs.Has(s[k])
  }

  /** Where a greedy `cs*` starting at `i` stops: the end of the longest run of `cs` characters. */
  function RunEnd(s: string, i: nat, cs: CharSet): (j: nat)
    requires i <= |s|
    ensures i <= j <= |s| && Span(s, i, j, cs)
    ensures j < |s| ==> !cs.Has(s[j])
    decreases |s| - i
  {
    if i < |s| && cs.Has(s[i]) then RunEnd(s, i + 1, cs) else i
  }

  /** Any run of `cs` characters from `i` ends at or before RunEnd. */
  lemma SpanWithinRun(s: string, i: nat, k: int, cs: CharSet)
    requires i <= |s| && Span(s, i, k, cs)
    ensures k <= RunEnd(s, i, cs)
  {
    var j := RunEnd(s, i, cs);
    assert forall x :: i <= x < k ==> cs.Has(s[x]);
  }

  /** A run that cannot start is empty. */
  lemma RunEndStops(s: string, i: nat, cs: CharSet)
    requires i < |s| && !cs.Has(s[i])
    ensures RunEnd(s, i, cs) == i
  {
  }

  /** \R matches s[r..t]. */
  ghost predicate LineBreakAt(s: string, r: int, t: int) {
    || (0 <= r && t == r + 2 && t <= |s| && s[r] == '\r' && s[r + 1] == '\n')
    || (0 <= r && t == r + 1 && t <= |s| && IsLineBreakChar(s[r]))
  }

  /** (\d+[\.\,])?\d+ matches s[u..d]. */
  ghost predicate NumeralAt(s: string, u: int, d: int) {
    || (u < d && Span(s, u, d, Digit))
    || (exists c :: u < c && c + 1 < d && Span(s, u, c, Digit) && Span(s, c + 1, d, Digit) && IsSeparator(s[c]))
  }

  /** ((\d+[\.\,])?\d+[k ]*), group 2, matches s[u..e]. */
  ghost predicate PriceShapeAt(s: string, u: int, e: int) {
    exists d :: u < d <= e && NumeralAt(s, u, d) && Span(s, d, e, KOrSpace)
  }

  /** `.` matches s[t] and group 2 matches s[t + 1..e]. */
  ghost predicate DotThenPriceAt(s: string, t: int, e: int) {
    0 <= t < |s| && !IsLineTerminator(s[t]) && PriceShapeAt(s, t + 1, e)
  }

  /** The positions of one way of matching the pattern: `\D*` covers s[start..g1Start], group 1 is
      s[g1Start..g1End], `.+` covers s[g1End..lineEnd], `\R` covers s[lineEnd..breakEnd], `.` is
      s[breakEnd], and group 2 is s[breakEnd + 1..g2End]. */
  datatype Match = Match(start: nat, g1Start: nat, g1End: nat, lineEnd: nat, breakEnd: nat, g2End: nat)
  {
    function PriceStart(): nat {
      breakEnd + 1
    }
  }

  /** \D*([0-9\,]+).+ matches s[st..r] with group 1 at s[p..q]. */
  ghost predicate PrefixPath(s: string, st: int, p: int, q: int, r: int) {
    && Span(s, st, p, NonDigit)
    && p < q && Span(s, p, q, QuantityChar)
    && q < r && Span(s, q, r, NonTerminator)
  }

  /** `m` is one way of matching the whole pattern against `s`. */
  ghost predicate IsPath(s: string, m: Match) {
    && PrefixPath(s, m.start, m.g1Start, m.g1End, m.lineEnd)
    && LineBreakAt(s, m.lineEnd, m.breakEnd)
    && DotThenPriceAt(s, m.breakEnd, m.g2End)
  }

  /** Java tries `a` before `b`: an earlier start or, at the same start, the first position where
      they differ lies further right in `a` (greedy quantifiers, and CR LF before a single break). */
  predicate Before(a: Match, b: Match) {
    if a.start != b.start then a.start < b.start
    else if a.g1Start != b.g1Start then a.g1Start > b.g1Start
    else if a.g1End != b.g1End then a.g1End > b.g1End
    else if a.lineEnd != b.lineEnd then a.lineEnd > b.lineEnd
    else if a.breakEnd != b.breakEnd then a.breakEnd > b.breakEnd
    else a.g2End > b.g2End
  }

  /** Group 2 from `u`, as Java's backtracking finds it: the optional `\d+[\.\,]` is tried first with
      the longest digit run, then `\d+` and `[k ]*` take all they can; without a separator and digits
      after it, the optional part is skipped. The first success is the longest match. */
  function LongestPrice(s: string, u: nat): (e: Option<nat>)
    requires u <= |s|
    ensures e.Some? ==> PriceShapeAt(s, u, e.value)
    ensures e.Some? ==> forall e' :: PriceShapeAt(s, u, e') ==> e' <= e.value
    ensures e.None? ==> forall e' :: !PriceShapeAt(s, u, e')
  {
    var a := RunEnd(s, u, Digit);
    PriceStartsWithDigit(s, u);
    if a == u then None
    else
      PriceEndsWithin(s, u);
      if a < |s| && IsSeparator(s[a]) && RunEnd(s, a + 1, Digit) > a + 1 then
        var b := RunEnd(s, a + 1, Digit);
        var e := RunEnd(s, b, KOrSpace);
        assert NumeralAt(s, u, b) by {
          assert u < a && a + 1 < b && Span(s, u, a, Digit) && Span(s, a + 1, b, Digit) && IsSeparator(s[a]);
        }
        assert Span(s, b, e, KOrSpace);
        RunEndStops(s, a, KOrSpace);
        Some(e)
      else
        var e := RunEnd(s, a, KOrSpace);
        assert NumeralAt(s, u, a);
        assert Span(s, a, e, KOrSpace);
        Some(e)
  }

  /** Group 2 starts with a digit and holds only digits, separators and `[k ]` characters. */
  lemma PriceAlphabet(s: string, u: int, e: int)
    requires PriceShapeAt(s, u, e)
    ensures 0 <= u < e <= |s| && IsDigit(s[u])
    ensures forall i :: u <= i < e ==> IsDigit(s[i]) || IsSeparator(s[i]) || KOrSpace.Has(s[i])
  {
    var d :| u < d <= e && NumeralAt(s, u, d) && Span(s, d, e, KOrSpace);
    if Span(s, u, d, Digit) {
      assert Digit.Has(s[u]);
    } else {
      var c :| u < c && c + 1 < d && Span(s, u, c, Digit) && Span(s, c + 1, d, Digit) && IsSeparator(s[c]);
      assert Digit.Has(s[u]);
      forall i | u <= i < e
        ensures IsDigit(s[i]) || IsSeparator(s[i]) || KOrSpace.Has(s[i])
      {
        if i < c {
          assert Digit.Has(s[i]);
        } else if c < i < d {
          assert Digit.Has(s[i]);
        }
      }
    }
  }

  /** Every match of group 2 from `u` starts with a digit. */
  lemma PriceStartsWithDigit(s: string, u: nat)
    ensures forall e' :: PriceShapeAt(s, u, e') ==> u < |s| && IsDigit(s[u])
  {
    forall e' | PriceShapeAt(s, u, e')
      ensures u < |s| && IsDigit(s[u])
    {
      PriceAlphabet(s, u, e');
    }
  }

  /** A greedy run stops at or before the first character outside `cs`. */
  lemma {:induction false} RunEndAtMost(s: string, i: nat, k: nat, cs: CharSet)
    requires i <= k < |s| && !cs.Has(s[k])
    ensures RunEnd(s, i, cs) <= k
    decreases k - i
  {
    if i < k && cs.Has(s[i]) {
      RunEndAtMost(s, i + 1, k, cs);
    }
  }

  /** Group 2 without a separator ends within the `[k ]` run after the leading digits. */
  lemma PlainPriceEnd(s: string, u: nat, d: int, e: int)
    requires u < d && Span(s, u, d, Digit) && Span(s, d, e, KOrSpace)
    ensures e <= RunEnd(s, RunEnd(s, u, Digit), KOrSpace)
  {
    var a := RunEnd(s, u, Digit);
    SpanWithinRun(s, u, d, Digit);
    if d == a {
      SpanWithinRun(s, a, e, KOrSpace);
    } else {
      assert Digit.Has(s[d]);
      RunEndAtMost(s, d, d, KOrSpace);
      SpanWithinRun(s, d, e, KOrSpace);
    }
  }

  /** Group 2 with a separator at c: c is where the leading digits stop, and group 2 ends within
      the `[k ]` run after the digits that follow the separator. */
  lemma SeparatedPriceEnd(s: string, u: nat, c: int, d: int, e: int)
    requires u < c && c + 1 < d && Span(s, u, c, Digit) && Span(s, c + 1, d, Digit) && Span(s, d, e, KOrSpace)
    requires IsSeparator(s[c])
    ensures RunEnd(s, u, Digit) == c
    ensures RunEnd(s, c + 1, Digit) > c + 1
    ensures e <= RunEnd(s, RunEnd(s, c + 1, Digit), KOrSpace)
  {
    SpanWithinRun(s, u, c, Digit);
    RunEndAtMost(s, u, c, Digit);
    var b := RunEnd(s, c + 1, Digit);
    SpanWithinRun(s, c + 1, d, Digit);
    if d == b {
      SpanWithinRun(s, b, e, KOrSpace);
    } else {
      assert Digit.Has(s[d]);
      RunEndAtMost(s, d, d, KOrSpace);
      SpanWithinRun(s, d, e, KOrSpace);
    }
  }

  /** A match of group 2 from `u` ends within the `[k ]` run after the leading digits or, when a
      separator and more digits follow them, within the `[k ]` run after those digits. */
  lemma PriceEndsWithin(s: string, u: nat)
    requires u <= |s|
    ensures forall e' :: PriceShapeAt(s, u, e') ==>
              var a := RunEnd(s, u, Digit);
              || e' <= RunEnd(s, a, KOrSpace)
              || (a < |s| && IsSeparator(s[a]) && RunEnd(s, a + 1, Digit) > a + 1
                  && e' <= RunEnd(s, RunEnd(s, a + 1, Digit), KOrSpace))
  {
    forall e' | PriceShapeAt(s, u, e')
      ensures var a := RunEnd(s, u, Digit);
              || e' <= RunEnd(s, a, KOrSpace)
              || (a < |s| && IsSeparator(s[a]) && RunEnd(s, a + 1, Digit) > a + 1
                  && e' <= RunEnd(s, RunEnd(s, a + 1, Digit), KOrSpace))
    {
      var d :| u < d <= e' && NumeralAt(s, u, d) && Span(s, d, e', KOrSpace);
      if Span(s, u, d, Digit) {
        PlainPriceEnd(s, u, d, e');
      } else {
        var c :| u < c && c + 1 < d && Span(s, u, c, Digit) && Span(s, c + 1, d, Digit) && IsSeparator(s[c]);
        SeparatedPriceEnd(s, u, c, d, e');
      }
    }
  }

  /** `.` at t, then group 2: where group 2 ends, if it matches at all. */
  function PriceAfter(s: string, t: nat): (e: Option<nat>)
    ensures e.Some? ==> DotThenPriceAt(s, t, e.value)
    ensures e.Some? ==> forall e' :: DotThenPriceAt(s, t, e') ==> e' <= e.value
    ensures e.None? ==> forall e' :: !DotThenPriceAt(s, t, e')
  {
    if t < |s| && !IsLineTerminator(s[t]) then LongestPrice(s, t + 1) else None
  }

  /** `\R.((\d+[.,])?\d+[k ]*)` after `.+` has stopped at r: CR LF first, then a single break. */
  function TryBreak(s: string, st: nat, p: nat, q: nat, r: nat): (m: Option<Match>)
    requires PrefixPath(s, st, p, q, r)
    ensures m.Some? ==> IsPath(s, m.value)
                        && m.value.start == st && m.value.g1Start == p && m.value.g1End == q && m.value.lineEnd == r
    ensures m.Some? ==> forall m' :: IsPath(s, m') && m'.start == st && m'.g1Start == p && m'.g1End == q && m'.lineEnd == r
                                     ==> m' == m.value || Before(m.value, m')
    ensures m.None? ==> forall m' :: IsPath(s, m') && m'.start == st && m'.g1Start == p && m'.g1End == q
                                     ==> m'.lineEnd != r
  {
    var crlf := r + 1 < |s| && s[r] == '\r' && s[r + 1] == '\n';
    if crlf && PriceAfter(s, r + 2).Some? then
      Some(Match(st, p, q, r, r + 2, PriceAfter(s, r + 2).value))
    else if r < |s| && IsLineBreakChar(s[r]) && PriceAfter(s, r + 1).Some? then
      Some(Match(st, p, q, r, r + 1, PriceAfter(s, r + 1).value))
    else
      None
  }

  /** `.+` backing off from r to q + 1, each time trying the rest of the pattern. */
  function SearchLine(s: string, st: nat, p: nat, q: nat, r: nat): (m: Option<Match>)
    requires PrefixPath(s, st, p, q, r)
    ensures m.Some? ==> IsPath(s, m.value)
                        && m.value.start == st && m.value.g1Start == p && m.value.g1End == q && m.value.lineEnd <= r
    ensures m.Some? ==> forall m' :: IsPath(s, m') && m'.start == st && m'.g1Start == p && m'.g1End == q && m'.lineEnd <= r
                                     ==> m' == m.value || Before(m.value, m')
    ensures m.None? ==> forall m' :: IsPath(s, m') && m'.start == st && m'.g1Start == p && m'.g1End == q
                                     ==> m'.lineEnd > r
    decreases r
  {
    var here := TryBreak(s, st, p, q, r);
    if here.Some? then here
    else if r == q + 1 then None
    else SearchLine(s, st, p, q, r - 1)
  }

  /** Group 1 backing off from q to p + 1; for each end, `.+` starts with its longest run. */
  function SearchGroup1End(s: string, st: nat, p: nat, q: nat): (m: Option<Match>)
    requires Span(s, st, p, NonDigit) && p < q && Span(s, p, q, QuantityChar)
    ensures m.Some? ==> IsPath(s, m.value) && m.value.start == st && m.value.g1Start == p && m.value.g1End <= q
    ensures m.Some? ==> forall m' :: IsPath(s, m') && m'.start == st && m'.g1Start == p && m'.g1End <= q
                                     ==> m' == m.value || Before(m.value, m')
    ensures m.None? ==> forall m' :: IsPath(s, m') && m'.start == st && m'.g1Start == p ==> m'.g1End > q
    decreases q
  {
    var r := RunEnd(s, q, NonTerminator);
    var here := if r > q then SearchLine(s, st, p, q, r) else None;
    assert forall m' :: IsPath(s, m') && m'.g1End == q ==> m'.lineEnd <= r by {
      forall m' | IsPath(s, m') && m'.g1End == q
        ensures m'.lineEnd <= r
      {
        SpanWithinRun(s, q, m'.lineEnd, NonTerminator);
      }
    }
    if here.Some? then here
    else if q == p + 1 then None
    else SearchGroup1End(s, st, p, q - 1)
  }

  /** Group 1 starting at p ends within the longest `[0-9,]` run from p. */
  lemma Group1WithinRun(s: string, p: nat)
    ensures forall m' :: IsPath(s, m') && m'.g1Start == p ==> m'.g1End <= RunEnd(s, p, QuantityChar)
  {
    forall m' | IsPath(s, m') && m'.g1Start == p
      ensures m'.g1End <= RunEnd(s, p, QuantityChar)
    {
      SpanWithinRun(s, p, m'.g1End, QuantityChar);
    }
  }

  /** `\D*` backing off from p to st; for each, group 1 starts with its longest run. */
  function SearchGroup1Start(s: string, st: nat, p: nat): (m: Option<Match>)
    requires Span(s, st, p, NonDigit)
    ensures m.Some? ==> IsPath(s, m.value) && m.value.start == st && m.value.g1Start <= p
    ensures m.Some? ==> forall m' :: IsPath(s, m') && m'.start == st && m'.g1Start <= p
                                     ==> m' == m.value || Before(m.value, m')
    ensures m.None? ==> forall m' :: IsPath(s, m') && m'.start == st ==> m'.g1Start > p
    decreases p
  {
    var q := RunEnd(s, p, QuantityChar);
    var here := if q > p then SearchGroup1End(s, st, p, q) else None;
    Group1WithinRun(s, p);
    if here.Some? then here
    else if p == st then None
    else SearchGroup1Start(s, st, p - 1)
  }

  /** Matcher.find(): starting positions from st onwards; at each, `\D*` starts with its longest run. */
  function SearchFrom(s: string, st: nat): (m: Option<Match>)
    requires st <= |s|
    ensures m.Some? ==> IsPath(s, m.value) && m.value.start >= st
    ensures m.Some? ==> forall m' :: IsPath(s, m') && m'.start >= st ==> m' == m.value || Before(m.value, m')
    ensures m.None? ==> forall m' :: IsPath(s, m') ==> m'.start < st
    decreases |s| - st
  {
    var p := RunEnd(s, st, NonDigit);
    var here := SearchGroup1Start(s, st, p);
    assert forall m' :: IsPath(s, m') && m'.start == st ==> m'.g1Start <= p by {
      forall m' | IsPath(s, m') && m'.start == st
        ensures m'.g1Start <= p
      {
        SpanWithinRun(s, st, m'.g1Start, NonDigit);
      }
    }
    if here.Some? then here
    else if st == |s| then None
    else SearchFrom(s, st + 1)
  }

  /** RIGHT_PATTERN.matcher(s).find(): the match Java reports, if any. */
  function FindRight(s: string): (m: Option<Match>)
    ensures m.Some? ==> IsPath(s, m.value)
    ensures m.Some? ==> forall m' :: IsPath(s, m') ==> m' == m.value || Before(m.value, m')
    ensures m.None? <==> forall m' :: !IsPath(s, m')
  {
    SearchFrom(s, 0)
  }

  /** matcher.group(1) */
  function Group1(s: string, m: Match): (g: string)
    requires IsPath(s, m)
    ensures |g| > 0 && forall i :: 0 <= i < |g| ==> QuantityChar.Has(g[i])
  {
    s[m.g1Start..m.g1End]
  }

  /** matcher.group(2) */
  function Group2(s: string, m: Match): (g: string)
    requires IsPath(s, m)
    ensures |g| > 0 && IsDigit(g[0])
    ensures forall i :: 0 <= i < |g| ==> IsDigit(g[i]) || IsSeparator(g[i]) || KOrSpace.Has(g[i])
  {
    PriceAlphabet(s, m.PriceStart(), m.g2End);
    s[m.PriceStart()..m.g2End]
  }
}

=== FILE: text.dfy ===
/** The java.lang.String and Collectors.joining operations the extractors apply to OCR text.
    A `string` is a sequence of Unicode scalar values. */
module Text {
  import opened Wrappers

  predicate IsDigit(c: char) {
    '0' <= c <= '9'
  }

  predicate AllDigits(s: string) {
    forall i :: 0 <= i < |s| ==> IsDigit(s[i])
  }

  /** Character.isWhitespace: the Unicode space, line and paragraph separators except the
      no-break spaces U+00A0, U+2007 and U+202F, plus TAB..CR and FS..US. */
  predicate IsWhitespace(c: char) {
    || c == ' ' || ('\t' <= c <= '\r') || ('\U{1C}' <= c <= '\U{1F}')
    || c == '\U{1680}' || ('\U{2000}' <= c <= '\U{2006}') || ('\U{2008}' <= c <= '\U{200A}')
    || c == '\U{2028}' || c == '\U{2029}' || c == '\U{205F}' || c == '\U{3000}'
  }

  predicate AllWhitespace(s: string) {
    forall i :: 0 <= i < |s| ==> IsWhitespace(s[i])
  }

  /** Lower-casing of one character, ASCII letters only. */
  function LowerChar(c: char): (l: char)
    ensures !('A' <= l <= 'Z')
    ensures !('A' <= c <= 'Z') ==> l == c
    ensures 'A' <= c <= 'Z' ==> l as int == c as int + 32
  {
    if 'A' <= c <= 'Z' then (c as int + 32) as char else c
  }

  /** String.toLowerCase on ASCII letters; every other character is kept. */
  function ToLower(s: string): (r: string)
    ensures |r| == |s|
    ensures forall i :: 0 <= i < |s| ==> r[i] == LowerChar(s[i])
  {
    if s == [] then [] else [LowerChar(s[0])] + ToLower(s[1..])
  }

  /** Lower-casing twice is lower-casing once. This is why the second toLowerCase in extractPrice
      adds nothing: it is applied to text that was lower-cased already (see
      CommodityListing.GroupTwoLowered for group 2 itself). */
  lemma ToLowerIdempotent(s: string)
    ensures ToLower(ToLower(s)) == ToLower(s)
  {
  }

  /** String.replace(c, ""): every occurrence of `c` dropped, everything else kept in order. */
  function Remove(s: string, c: char): (r: string)
    ensures c !in r
    ensures forall x :: x in r <==> x in s && x != c
  {
    if s == [] then []
    else if s[0] == c then Remove(s[1..], c) else [s[0]] + Remove(s[1..], c)
  }

  /** Removal deletes every copy of `c` and keeps every other character as often as it occurs. */
  lemma {:induction false} RemoveCounts(s: string, c: char)
    ensures multiset(Remove(s, c)) == multiset(s)[c := 0]
  {
    if s != [] {
      assert s == [s[0]] + s[1..];
      RemoveCounts(s[1..], c);
    }
  }

  /** The first occurrence is the one IndexOf reports. */
  lemma IndexOfFirst(s: string, c: char, i: nat)
    requires i < |s| && s[i] == c && c !in s[..i]
    ensures IndexOf(s, c) == Some(i)
  {
    assert s[i] in s;
    var k := IndexOf(s, c).value;
    assert forall j :: 0 <= j < i ==> s[..i][j] == s[j];
    assert forall j :: 0 <= j < k ==> s[..k][j] == s[j];
  }

  /** Removing a character that does not occur changes nothing. */
  lemma {:induction false} RemoveAbsent(s: string, c: char)
    requires c !in s
    ensures Remove(s, c) == s
  {
    if s != [] {
      assert s[1..] == s[|s| - |s[1..]|..];
      assert c !in s[1..];
      RemoveAbsent(s[1..], c);
    }
  }

  /** Removal works piecewise on a concatenation. */
  lemma {:induction false} RemoveAppend(a: string, b: string, c: char)
    ensures Remove(a + b, c) == Remove(a, c) + Remove(b, c)
  {
    if a != [] {
      assert (a + b)[0] == a[0];
      assert (a + b)[1..] == a[1..] + b;
      RemoveAppend(a[1..], b, c);
    } else {
      assert a + b == b;
    }
  }

  /** Text without upper-case ASCII letters is its own lower case. */
  lemma ToLowerNoUpper(s: string)
    requires forall i :: 0 <= i < |s| ==> !('A' <= s[i] <= 'Z')
    ensures ToLower(s) == s
  {
  }

  /** Lower-casing works piecewise on a concatenation. */
  lemma {:induction false} ToLowerAppend(a: string, b: string)
    ensures ToLower(a + b) == ToLower(a) + ToLower(b)
    decreases |a|
  {
    if a == [] {
      assert a + b == b;
    } else {
      assert (a + b)[0] == a[0];
      assert (a + b)[1..] == a[1..] + b;
      ToLowerAppend(a[1..], b);
    }
  }

  /** String.replace(a, b) for one-character strings: every `a` becomes `b`, in place. */
  function Replace(s: string, a: char, b: char): (r: string)
    ensures |r| == |s|
    ensures forall i :: 0 <= i < |s| ==> r[i] == (if s[i] == a then b else s[i])
  {
    if s == [] then [] else [if s[0] == a then b else s[0]] + Replace(s[1..], a, b)
  }

  /** Replacing a character that does not occur changes nothing. */
  lemma ReplaceAbsent(s: string, a: char, b: char)
    requires a !in s
    ensures Replace(s, a, b) == s
  {
  }

  /** Replacement works piecewise on a concatenation. */
  lemma {:induction false} ReplaceAppend(s: string, t: string, a: char, b: char)
    ensures Replace(s + t, a, b) == Replace(s, a, b) + Replace(t, a, b)
    decreases |s|
  {
    if s == [] {
      assert s + t == t;
    } else {
      assert (s + t)[0] == s[0];
      assert (s + t)[1..] == s[1..] + t;
      ReplaceAppend(s[1..], t, a, b);
    }
  }

  /** String.lastIndexOf(c), with -1 modelled as `None`. */
  function LastIndexOf(s: string, c: char): (r: Option<nat>)
    ensures r.None? <==> c !in s
    ensures r.Some? ==> r.value < |s| && s[r.value] == c && c !in s[r.value + 1..]
  {
    if s == [] then None
    else if s[|s| - 1] == c then Some(|s| - 1)
    else
      assert s == s[..|s| - 1] + [s[|s| - 1]];
      LastIndexOf(s[..|s| - 1], c)
  }

  /** String.indexOf(c), with -1 modelled as `None`. */
  function IndexOf(s: string, c: char): (r: Option<nat>)
    ensures r.None? <==> c !in s
    ensures r.Some? ==> r.value < |s| && s[r.value] == c && c !in s[..r.value]
  {
    if s == [] then None
    else if s[0] == c then Some(0)
    else
      assert s == [s[0]] + s[1..];
      match IndexOf(s[1..], c)
      case None => None
      case Some(i) =>
        assert s[..i + 1] == [s[0]] + s[1..][..i];
        Some(i + 1)
  }

  /** Index of the first non-whitespace character, or |s|. */
  function StripStart(s: string): (i: nat)
    ensures i <= |s| && AllWhitespace(s[..i])
    ensures i < |s| ==> !IsWhitespace(s[i])
  {
    if s == [] || !IsWhitespace(s[0]) then 0
    else
      var i := 1 + StripStart(s[1..]);
      assert s[..i] == [s[0]] + s[1..][..i - 1];
      i
  }

  /** One past the last non-whitespace character, or 0. */
  function StripEnd(s: string): (j: nat)
    ensures j <= |s| && AllWhitespace(s[j..])
    ensures j > 0 ==> !IsWhitespace(s[j - 1])
  {
    if s == [] || !IsWhitespace(s[|s| - 1]) then |s|
    else
      var j := StripEnd(s[..|s| - 1]);
      assert s[j..] == s[..|s| - 1][j..] + [s[|s| - 1]];
      j
  }

  /** String.strip: `s` without its leading and trailing whitespace. */
  function Strip(s: string): (r: string)
    ensures exists a :: 0 <= a <= a + |r| <= |s| && r == s[a..a + |r|]
                        && AllWhitespace(s[..a]) && AllWhitespace(s[a + |r|..])
    ensures r != [] ==> !IsWhitespace(r[0]) && !IsWhitespace(r[|r| - 1])
    ensures r == [] <==> AllWhitespace(s)
  {
    var i := StripStart(s);
    if i == |s| then
      assert s[..i] == s;
      assert s[0..0] == [];
      []
    else
      var j := StripEnd(s);
      assert i < j;
      assert s[i..j][0] == s[i];
      assert s[i..j][j - i - 1] == s[j - 1];
      assert !AllWhitespace(s) by {
        assert !IsWhitespace(s[i]);
      }
      s[i..j]
  }

  /** Stripping a stripped string changes nothing. */
  lemma StripIdempotent(s: string)
    ensures Strip(Strip(s)) == Strip(s)
  {
    var r := Strip(s);
    if r != [] {
      var i := StripStart(r);
      assert i == 0;
      var j := StripEnd(r);
      assert j == |r|;
      assert r[0..|r|] == r;
    }
  }

  /** Collectors.joining(sep) over `parts`: the parts in order, one `sep` between neighbours. Its
      characters are those of the parts, plus `sep` when there are at least two parts. */
  function Join(parts: seq<string>, sep: char): (s: string)
    ensures forall c :: c in s <==> (|parts| > 1 && c == sep) || exists i :: 0 <= i < |parts| && c in parts[i]
    decreases |parts|
  {
    if |parts| == 0 then []
    else if |parts| == 1 then parts[0]
    else
      var rest := Join(parts[1..], sep);
      forall c | c in parts[0] + [sep] + rest
        ensures c == sep || exists i :: 0 <= i < |parts| && c in parts[i]
      {
        if c !in parts[0] && c != sep {
          var i :| 0 <= i < |parts[1..]| && c in parts[1..][i];
          assert parts[i + 1] == parts[1..][i];
        }
      }
      forall c, i | 0 <= i < |parts| && c in parts[i]
        ensures c in parts[0] + [sep] + rest
      {
        if i > 0 {
          assert parts[1..][i - 1] == parts[i];
        }
      }
      parts[0] + [sep] + rest
  }

  /** The inverse of Join: the pieces of `s` between occurrences of `sep`, empty pieces kept. */
  function SplitOn(s: string, sep: char): (parts: seq<string>)
    ensures |parts| >= 1
    decreases |s|
  {
    match IndexOf(s, sep)
    case None => [s]
    case Some(i) => [s[..i]] + SplitOn(s[i + 1..], sep)
  }

  /** Splitting at the first separator: the piece before it, then the pieces of the remainder. */
  lemma SplitOnFirst(s: string, sep: char, i: nat)
    requires IndexOf(s, sep) == Some(i)
    ensures SplitOn(s, sep) == [s[..i]] + SplitOn(s[i + 1..], sep)
  {
  }

  /** Joining pieces that do not contain the separator, then splitting, gives the pieces back. */
  lemma {:induction false} SplitJoin(parts: seq<string>, sep: char)
    requires |parts| >= 1
    requires forall i :: 0 <= i < |parts| ==> sep !in parts[i]
    ensures SplitOn(Join(parts, sep), sep) == parts
    decreases |parts|
  {
    if |parts| == 1 {
      assert IndexOf(parts[0], sep).None?;
    } else {
      var head, tail := parts[0], parts[1..];
      var rest := Join(tail, sep);
      var s := head + [sep] + rest;
      assert Join(parts, sep) == s;
      assert s[..|head|] == head;
      IndexOfFirst(s, sep, |head|);
      assert s[|head| + 1..] == rest;
      SplitOnFirst(s, sep, |head|);
      assert forall i :: 0 <= i < |tail| ==> sep !in tail[i] by {
        forall i | 0 <= i < |tail| ensures sep !in tail[i] {
          assert tail[i] == parts[i + 1];
        }
      }
      SplitJoin(tail, sep);
      assert parts == [head] + tail;
    }
  }

  /** Splitting and joining again gives the original string. */
  lemma {:induction false} JoinSplit(s: string, sep: char)
    ensures Join(SplitOn(s, sep), sep) == s
    decreases |s|
  {
    match IndexOf(s, sep)
    case None =>
    case Some(i) =>
      var rest := SplitOn(s[i + 1..], sep);
      JoinSplit(s[i + 1..], sep);
      var parts := [s[..i]] + rest;
      assert parts[1..] == rest;
      assert Join(parts, sep) == s[..i] + [sep] + s[i + 1..];
      assert s == s[..i] + [s[i]] + s[i + 1..];
  }

  function Pow10(n: nat): (p: nat)
    ensures p >= 1
  {
    if n == 0 then 1 else 10 * Pow10(n - 1)
  }

  /** The decimal value of a string of ASCII digits; the empty string has value 0. */
  function DigitsValue(ds: string): (n: nat)
    requires AllDigits(ds)
    ensures n < Pow10(|ds|)
  {
    if ds == [] then 0
    else
      var n := DigitsValue(ds[..|ds| - 1]);
      var d := ds[|ds| - 1] as int - '0' as int;
      assert 10 * n + d < 10 * Pow10(|ds| - 1);
      10 * n + d
  }

  /** Appending a digit shifts the value one decimal place and adds the digit. */
  lemma DigitsValueSnoc(ds: string, d: char)
    requires AllDigits(ds) && IsDigit(d)
    ensures AllDigits(ds + [d])
    ensures DigitsValue(ds + [d]) == 10 * DigitsValue(ds) + (d as int - '0' as int)
  {
    assert (ds + [d])[..|ds|] == ds;
  }
}

=== FILE: wrappers.dfy ===
/** Optional values and the outcome of a call that may throw. `Result` supports Dafny's `:-`
    operator, whose three members are named by the language. */
module Wrappers {

  /** A present value (`Some`) or its absence (`None`). */
  datatype Option<+T> = None | Some(value: T)

  /** A call that returned `value` or threw `error`. */
  datatype Result<+R, +E> = Success(value: R) | Failure(error: E) {

    /** A thrown outcome stops a `:-` chain. */
    predicate IsFailure() {
      Failure?
    }

    /** The thrown outcome, passed on unchanged at a different value type. */
    function PropagateFailure<U>(): Result<U, E>
      requires Failure?
    {
      Failure(error)
    }

    /** The returned value, taken by `:-` when nothing was thrown. */
    function Extract(): R
      requires Success?
    {
      value
    }

    /** A catch-all handler that records any exception as an absent value: the value is present
        exactly when the call returned, and it is the returned value. */
    function ToOption(): (o: Option<R>)
      ensures o.Some? <==> Success?
      ensures o.Some? ==> o.value == value
    {
      match this
      case Success(v) => Some(v)
      case Failure(_) => None
    }
  }
}
